=== FILE: README.md ===
# traceanalyzer in Dafny

A model of the analysis core of *traceanalyzer*. This is a set of Java command-line
tools that read a trace file, one Chrome-trace style JSON event per line, from an LSM
storage engine, and derive facts about its flushes and merges. The modelled tools are:

- **LineageComputer.compute**: replays the begin/end events of flushes and merges on two
  stacks. It writes one record per completed operation whose end event carries
  `args.size`: flushes get the ids 0, 1, 2, … in order. A merge names the flush ids of the two dates encoded at the end of its name.
- **TreeHeightComputer.compute**: replays `flush -> n` and `merge -> a-b` lines into a
  forest of live intervals. It reports the largest maximum height and the largest
  size-weighted height.
- **TimeBreaker.breakdown**: matches begin and end events on one shared stack. It keeps,
  per name, the sum, minimum, maximum and count of durations, plus the totals of instant
  events. It also tracks the overall time span.
- **ThreadExtractor.extract**: copies the records of chosen threads. Each record is copied
  at most once and counted for the first thread it matches.
- **TraceFilter.extract**: copies each record once for every exact or contains predicate
  that it satisfies.
- **ThreadFinder.find**: collects the (process id, thread id) pairs of the records one of
  whose string fields takes a listed value.

Module layout:

- `Wrappers`: `Option` and `Result`.
- `Strings`: the Java string and number operations the tools use. These are `trim`,
  `indexOf`, `lastIndexOf`, `substring`, `contains`, `Long.toString`, `Integer.parseInt`,
  `long` division and 64-bit wrap-around.
- `Records`: a parsed line as a map from field name to value, plus the Jackson accessors
  the tools call and the line clean-up they share.
- `Numbers`: `min`, `max` and sums.
- One module per tool: `Lineage`, `TreeHeight`, `TimeBreaker`, `ThreadExtractor`,
  `TraceFilter` and `ThreadFinder`.

Each tool's loop is a fold over the lines of the file. Every exception the Java code lets
escape, and every `System.exit(1)`, becomes a `Fault` in a `Result`. The JSON parser is a
function parameter `parse`, where `None` stands for Jackson throwing. The date format is a
parameter `dateOf` that gives epoch milliseconds. `JsonNode.toString` is a parameter `show`.

Four behaviours of the code are easy to overlook, and the model keeps them:
- An unfinished begin event at the end of the input is not an error.
- A merge whose dates have no flush id prints `null` and does not fail.
- A merge range is never checked for gaps.
- In LineageComputer, TimeBreaker and TraceFilter, a line that starts with `{` but does
  not parse is fatal, not skipped.

## Model

| member | source | states |
|---|---|---|
| Strings.Trim | src/main/java/org/amoudi/trace/TraceFilter.java:57 | `String.trim`: the result is the input with only leading and trailing characters at or below the space removed, and it neither starts nor ends with one |
| Strings.TrimUnique | src/main/java/org/amoudi/trace/TraceFilter.java:57 | any string cut from the input that way, with no such character left at either end, is the trimmed string |
| Strings.ContainsIsOccurrence | src/main/java/org/amoudi/trace/TraceFilter.java:84 | `String.contains` holds exactly when the value occurs at some index of the text |
| Strings.LastIndexOf | src/main/java/org/amoudi/trace/TraceFilter.java:62 | the result is the last position holding the character, or -1 when there is none |
| Strings.IndexOf | src/main/java/org/amoudi/trace/TreeHeightComputer.java:85 | the result is the first position holding the character, or -1 when there is none |
| Strings.Substring | src/main/java/org/amoudi/trace/TreeHeightComputer.java:84 | `substring(b, e)` is defined exactly when `0 <= b <= e <= length`, and then holds the characters `b .. e-1` |
| Strings.StripExtension | src/main/java/org/amoudi/trace/TraceFilter.java:43 | the cut is defined exactly when the path has a `.`; the result is the prefix before the last `.` |
| Strings.ConcatMapAppend | src/main/java/org/amoudi/trace/TraceFilter.java:44-46 | appending one name part per element distributes over concatenation of the element lists |
| Strings.IntToString | src/main/java/org/amoudi/trace/ThreadExtractor.java:61-63 | the decimal form starts with `-` exactly for negative numbers and is all digits otherwise |
| Strings.ParseDecimalOfIntToString | src/main/java/org/amoudi/trace/TimeBreaker.java:61 | reading back the decimal form of any integer gives the integer |
| Strings.ParseInt | src/main/java/org/amoudi/trace/TreeHeightComputer.java:87-88 | `Integer.parseInt` accepts a signed decimal numeral exactly when its value fits in 32 bits, and then gives that value |
| Strings.ParseIntOfIntToString | src/main/java/org/amoudi/trace/TreeHeightComputer.java:93 | `parseInt` reads back the decimal form of every 32-bit value |
| Strings.JavaDiv | src/main/java/org/amoudi/trace/TimeBreaker.java:124 | `long` division truncates toward zero: the remainder takes the sign of the dividend |
| Strings.WrapLong | src/main/java/org/amoudi/trace/TimeBreaker.java:130 | the result is a `long`, and equals the exact value when it fits |
| Strings.WrapLongCongruent | src/main/java/org/amoudi/trace/TimeBreaker.java:130 | the wrapped value differs from the exact one by a multiple of 2^64 |
| Strings.WrapInt | src/main/java/org/amoudi/trace/TreeHeightComputer.java:40 | the result is an `int`, equals the exact value when it fits, and is 2^32 less just above the range |
| Records.AsText | src/main/java/org/amoudi/trace/TraceFilter.java:74 | `asText` is a string's own text and is empty exactly for the empty string and for objects |
| Records.AsLong | src/main/java/org/amoudi/trace/TimeBreaker.java:61 | `asLong` of a number is its value |
| Records.LongValue | src/main/java/org/amoudi/trace/ThreadExtractor.java:97 | `longValue` of a non-number is 0; of a number, its low 64 bits as a `long`, which is its value when that fits |
| Records.TextValue | src/main/java/org/amoudi/trace/ThreadFinder.java:70 | `textValue` is non-null exactly for string nodes |
| Records.TextOf | src/main/java/org/amoudi/trace/TimeBreaker.java:65 | `findValue(key).asText()` succeeds exactly when the key is present, and otherwise dereferences null |
| Records.Timestamp | src/main/java/org/amoudi/trace/TimeBreaker.java:61 | reading `ts` succeeds exactly when it is present, and otherwise dereferences null |
| Records.Candidate | src/main/java/org/amoudi/trace/TraceFilter.java:57-62 | a line is looked at exactly when its trimmed form starts with `{`; the text parsed is that form cut just after its last `}` |
| Records.Listing | src/main/java/org/amoudi/trace/ThreadExtractor.java:72-101 | the output text starts with `[` and a newline |
| Records.ListingIsConcat | src/main/java/org/amoudi/trace/ThreadExtractor.java:72-101 | the output text is `[` and a newline, then each written record followed by `,` and a newline, with no closing bracket |
| Lineage.DecodeSuffix | src/main/java/org/amoudi/trace/LineageComputer.java:116-119 | the suffix is cut exactly when the name has at least 49 characters; "begin" is `name[len-25 .. len-2)` and "end" is `name[len-49 .. len-26)` |
| Lineage.DecodeEncodedName | src/main/java/org/amoudi/trace/LineageComputer.java:114-119 | a name ending in `<first>_<second>_b` decodes to begin = second and end = first |
| Lineage.FieldText | src/main/java/org/amoudi/trace/LineageComputer.java:70-108 | a required field must be present with non-empty text; an absent one is a missing-field exit |
| Lineage.DecodeEvent | src/main/java/org/amoudi/trace/LineageComputer.java:70-121 | a decoded event carries the record, its category and phase as written, the cut name suffix and the parsed "begin" date |
| Lineage.DecodeLine | src/main/java/org/amoudi/trace/LineageComputer.java:56-69 | a line not starting with `{` is skipped; a `{` line that does not parse is fatal; any other line is decoded from its record |
| Lineage.Apply | src/main/java/org/amoudi/trace/LineageComputer.java:121-208 | a begin never fails; an end fails exactly when its stack is empty, a `ts` or its `args` is missing, or a merge record's "end" date does not parse; a begin pushes on its own category's stack; an end pops only that stack, and an empty stack fails; a completed end writes a record exactly when its `args` carries a `size`, and at most one, of the event's category; counter and index move only with a flush record |
| Lineage.Get | src/main/java/org/amoudi/trace/LineageComputer.java:195-196 | `Map.get` gives the entry for a present key and null otherwise |
| Lineage.Step | src/main/java/org/amoudi/trace/LineageComputer.java:56-62 | a line not starting with `{` leaves the state unchanged |
| Lineage.Compute | src/main/java/org/amoudi/trace/LineageComputer.java:38-213 | succeeds exactly when the path has a `.` and the replay succeeds; the output goes to the input path with its extension replaced by `.lineage.txt`; it is `[`, the records joined by `,` and a newline, then `]`; the flush ids are 0, 1, 2, … in order |
| Lineage.JoinRecordsAppend | src/main/java/org/amoudi/trace/LineageComputer.java:149-153 | a record after the first is preceded by a `,` and a newline separator |
| Lineage.FlushIdsAppend | src/main/java/org/amoudi/trace/LineageComputer.java:154-157 | writing a flush record adds its id to the flush ids, and a merge record adds none |
| Lineage.AdvancesKeepsValid | src/main/java/org/amoudi/trace/LineageComputer.java:148-157 | writing a flush record with id `counter` and then incrementing keeps the flush ids equal to 0 .. counter-1 |
| Lineage.StepKeepsValid | src/main/java/org/amoudi/trace/LineageComputer.java:56-208 | every line keeps flush ids, index entries and output text consistent |
| Lineage.RunKeepsValid | src/main/java/org/amoudi/trace/LineageComputer.java:56-209 | the whole pass keeps flush ids, index entries and output text consistent |
| Lineage.InitValid | src/main/java/org/amoudi/trace/LineageComputer.java:48-55 | the initial state (empty stacks and index, counter 0, `[` written) is consistent |
| Lineage.RunFromInitValid | src/main/java/org/amoudi/trace/LineageComputer.java:48-209 | a pass from the initial state leaves the emitted flush ids equal to 0 .. counter-1 |
| Lineage.SizelessEndOnlyPops | src/main/java/org/amoudi/trace/LineageComputer.java:129-144 | an end whose `args` has no `size` pops its stack and changes nothing else |
| Lineage.EndWithoutArgsFails | src/main/java/org/amoudi/trace/LineageComputer.java:135-140 | an end without `args` is fatal |
| Lineage.EndRecord | src/main/java/org/amoudi/trace/LineageComputer.java:127-197 | a written record's duration is the end `ts` minus the popped begin `ts`; a flush takes the counter as id; a merge takes the index entries of the "begin" and "end" dates, null when absent |
| Lineage.MergeKeepsCounter | src/main/java/org/amoudi/trace/LineageComputer.java:161-200 | a merge event never changes the counter or the index |
| Lineage.OtherPhasesSkipped | src/main/java/org/amoudi/trace/LineageComputer.java:109-112 | an event whose phase is neither `B` nor `E` is skipped with no state change |
| Lineage.CategoryCheckedAfterSuffix | src/main/java/org/amoudi/trace/LineageComputer.java:114-121 | a short name fails before the category is looked at; an unknown category fails after the suffix and date are read |
| TreeHeight.GetMerge | src/main/java/org/amoudi/trace/TreeHeightComputer.java:83-90 | both bounds are 32-bit; a line shorter than the prefix, or with no `-` after it, fails |
| TreeHeight.GetFlush | src/main/java/org/amoudi/trace/TreeHeightComputer.java:92-94 | the id is 32-bit; a line shorter than the prefix fails |
| TreeHeight.GetFlushOfFlushLine | src/main/java/org/amoudi/trace/TreeHeightComputer.java:92-94 | `getFlush` reads back the id of every `flush -> n` line |
| TreeHeight.GetMergeOfMergeLine | src/main/java/org/amoudi/trace/TreeHeightComputer.java:83-90 | `getMerge` reads back both ids of every `merge -> a-b` line with `a >= 0` |
| TreeHeight.AddFlush | src/main/java/org/amoudi/trace/TreeHeightComputer.java:51-54 | a flush adds the leaf `[n, n]` at height 1 to both maps and keeps every other entry |
| TreeHeight.Children | src/main/java/org/amoudi/trace/TreeHeightComputer.java:34-37 | the children of a merge are exactly the live starts in `lo .. hi`, in increasing order |
| TreeHeight.Absorb | src/main/java/org/amoudi/trace/TreeHeightComputer.java:34-45 | the merge loop succeeds exactly when every live start it meets also has a weighted entry |
| TreeHeight.AbsorbMaps | src/main/java/org/amoudi/trace/TreeHeightComputer.java:36-39 | the loop removes exactly the live starts in range from both maps and keeps everything else |
| TreeHeight.AbsorbMax | src/main/java/org/amoudi/trace/TreeHeightComputer.java:38 | the running maximum is the largest child height, or its start value when that is larger |
| TreeHeight.AbsorbSums | src/main/java/org/amoudi/trace/TreeHeightComputer.java:40-43 | the running sums are the size-weighted height sum and the size sum over the children, each size being `end - start + 1` wrapped to 32 bits as the `int` subtraction does |
| TreeHeight.WeightedHeight | src/main/java/org/amoudi/trace/TreeHeightComputer.java:48-49 | the quotient plus one is finite exactly when the total is finite and the count is non-zero |
| TreeHeight.Merge | src/main/java/org/amoudi/trace/TreeHeightComputer.java:29-50 | a merge up to `Integer.MAX_VALUE` never ends |
| TreeHeight.Step | src/main/java/org/amoudi/trace/TreeHeightComputer.java:25-59 | an empty line stops reading; a line starting with neither `m` nor `f` is fatal |
| TreeHeight.MergeKeys | src/main/java/org/amoudi/trace/TreeHeightComputer.java:34-50 | after a merge the maps still agree, `lo` holds `[lo, hi]`, nothing in `lo+1 .. hi` is live, and every other entry is untouched |
| TreeHeight.MergeMaxHeight | src/main/java/org/amoudi/trace/TreeHeightComputer.java:38-47 | a merge's height is one more than the tallest child (1 when there is none) |
| TreeHeight.MergeWeightedHeight | src/main/java/org/amoudi/trace/TreeHeightComputer.java:40-50 | a merge's weighted height is the size-weighted mean of its children's heights plus one, and not finite with no children |
| TreeHeight.MergeWeightedHeightBounds | src/main/java/org/amoudi/trace/TreeHeightComputer.java:40-50 | with children of positive size and heights in `[low, high]`, the weighted height lies in `[low+1, high+1]` |
| TreeHeight.RunKeepsKeysAgree | src/main/java/org/amoudi/trace/TreeHeightComputer.java:25-60 | replaying lines keeps both maps keyed by the same starts |
| TreeHeight.RunStopsAtEmptyLine | src/main/java/org/amoudi/trace/TreeHeightComputer.java:26-28 | lines after the first empty line are never read |
| TreeHeight.MaxHeight | src/main/java/org/amoudi/trace/TreeHeightComputer.java:63-69 | the result is the largest live maximum height, or 0 with no intervals |
| TreeHeight.MaxWeightedHeight | src/main/java/org/amoudi/trace/TreeHeightComputer.java:74-80 | the result is the largest live weighted height, 0 with no intervals, and not finite when any is not |
| TreeHeight.Compute | src/main/java/org/amoudi/trace/TreeHeightComputer.java:15-81 | the computation succeeds exactly when the replay does, and reports the two maxima over the live intervals |
| TimeBreaker.Credit | src/main/java/org/amoudi/trace/TimeBreaker.java:81-88 | crediting adds the duration to the sum, counts it, and widens min and max to include it |
| TimeBreaker.StatsOfCountSum | src/main/java/org/amoudi/trace/TimeBreaker.java:81-87 | a name's count is the number of its durations and its sum their total |
| TimeBreaker.StatsOfLeast | src/main/java/org/amoudi/trace/TimeBreaker.java:81-85 | a name's minimum is the least of its durations, or `Long.MAX_VALUE` with none |
| TimeBreaker.StatsOfGreatest | src/main/java/org/amoudi/trace/TimeBreaker.java:81-86 | a name's maximum is the greatest of its durations, or `Long.MIN_VALUE` with none |
| TimeBreaker.StatsOfSummary | src/main/java/org/amoudi/trace/TimeBreaker.java:81-88 | a name's statistics are the count, the sum, and the least and greatest of its durations |
| TimeBreaker.Observe | src/main/java/org/amoudi/trace/TimeBreaker.java:61-63 | every event widens the global span to include its timestamp and changes nothing else |
| TimeBreaker.Apply | src/main/java/org/amoudi/trace/TimeBreaker.java:61-115 | fails exactly when `ts` or `ph` is missing, or `name` for a begin or an instant; `B` pushes its name; `E` pops the shared stack and credits the popped name, or only widens the span on an empty stack; `i` adds an instant amount; other phases only widen the span |
| TimeBreaker.AddInstant | src/main/java/org/amoudi/trace/TimeBreaker.java:90-112 | an instant with `args`, `count` and `avg-duration-ns` adds their product to its name, and any other instant changes nothing |
| TimeBreaker.Step | src/main/java/org/amoudi/trace/TimeBreaker.java:47-60 | a line not starting with `{` is skipped |
| TimeBreaker.CreditKeepsStatsAgree | src/main/java/org/amoudi/trace/TimeBreaker.java:81-88 | crediting keeps every name's statistics equal to those of its credited durations |
| TimeBreaker.AddKeepsSumsAgree | src/main/java/org/amoudi/trace/TimeBreaker.java:106-111 | adding keeps every instant total equal to the sum of its added amounts |
| TimeBreaker.ApplyKeepsConsistent | src/main/java/org/amoudi/trace/TimeBreaker.java:61-115 | each event keeps both maps in agreement with the amounts credited so far |
| TimeBreaker.StepKeepsConsistent | src/main/java/org/amoudi/trace/TimeBreaker.java:47-115 | each line keeps both maps in agreement with the amounts credited so far |
| TimeBreaker.RunKeepsConsistent | src/main/java/org/amoudi/trace/TimeBreaker.java:47-116 | the whole pass keeps both maps in agreement with the amounts credited so far |
| TimeBreaker.LineStamp | src/main/java/org/amoudi/trace/TimeBreaker.java:47-61 | a line contributes at most one timestamp |
| TimeBreaker.StepSpan | src/main/java/org/amoudi/trace/TimeBreaker.java:61-63 | each line widens the span by its timestamp, if any |
| TimeBreaker.RunSpan | src/main/java/org/amoudi/trace/TimeBreaker.java:38-63 | the global start and end are the least and greatest timestamp, against the `Long.MAX_VALUE` and `Long.MIN_VALUE` sentinels |
| TimeBreaker.StepFails | src/main/java/org/amoudi/trace/TimeBreaker.java:47-115 | one line fails exactly when it starts with `{` and does not parse, or its record lacks `ts`, `ph`, or the `name` a begin or instant reads |
| TimeBreaker.RunFails | src/main/java/org/amoudi/trace/TimeBreaker.java:47-116 | the pass fails exactly when some line does, whatever came before it |
| TimeBreaker.Breakdown | src/main/java/org/amoudi/trace/TimeBreaker.java:37-131 | fails exactly when some line starts with `{` and does not parse or lacks a field its phase reads; otherwise a name's statistics are the count, sum, least and greatest of its durations, an instant total is the truncated thousandth of the sum of its amounts, the span is the least and greatest timestamp, and total time is end minus start wrapped to a `long` |
| TimeBreaker.EmptyTrace | src/main/java/org/amoudi/trace/TimeBreaker.java:38-130 | with no events the span stays at its sentinels and the total time wraps around to 1 |
| ThreadExtractor.OutputName | src/main/java/org/amoudi/trace/ThreadExtractor.java:50-67 | the name is `parent/outputDir/file.filtered`, then one part per thread in order, then `.json` |
| ThreadExtractor.FirstMatch | src/main/java/org/amoudi/trace/ThreadExtractor.java:96-104 | the result is the first thread whose id matches and whose process id, if requested, equals the record's; it fails exactly when the record has no `pid` and the loop, before any match, reaches a thread with the record's thread id that requests a process id |
| ThreadExtractor.Init | src/main/java/org/amoudi/trace/ThreadExtractor.java:73-74 | one zero count per requested thread |
| ThreadExtractor.IncrementSum | src/main/java/org/amoudi/trace/ThreadExtractor.java:100 | counting a record for one thread adds one to the total of the counts |
| ThreadExtractor.Step | src/main/java/org/amoudi/trace/ThreadExtractor.java:75-104 | a line fails exactly when it parses, has a `tid`, and its thread loop reaches that null dereference; otherwise it is counted and writes nothing, or one record credited to the first matching thread |
| ThreadExtractor.RunFails | src/main/java/org/amoudi/trace/ThreadExtractor.java:75-104 | the pass fails exactly when some line does |
| ThreadExtractor.StepWrites | src/main/java/org/amoudi/trace/ThreadExtractor.java:84-104 | a line writes its record exactly when it parses, has a `tid` and matches some thread; unparseable and tid-less lines are skipped |
| ThreadExtractor.RunWrites | src/main/java/org/amoudi/trace/ThreadExtractor.java:75-109 | the pass writes exactly the matching records in input order; the per-thread counts add up to the number written, at most the lines read |
| ThreadExtractor.Extract | src/main/java/org/amoudi/trace/ThreadExtractor.java:47-116 | an input without a parent directory dereferences null; otherwise it fails exactly when some line reaches the null `pid` comparison; on success it writes the selected records under the built name; `totalOut` is the sum of the per-thread counts |
| TraceFilter.OutputName | src/main/java/org/amoudi/trace/TraceFilter.java:42-47 | the path cut at its last `.`, then `.filtered`, `.key` per predicate and `.json`; a path without `.` fails |
| TraceFilter.PairHolds | src/main/java/org/amoudi/trace/TraceFilter.java:76-89 | an `e` pair needs equal text, a `c` pair needs the value inside the text, and any other kind always writes |
| TraceFilter.FieldText | src/main/java/org/amoudi/trace/TraceFilter.java:72-75 | a predicate looks at a field only when it is present with non-empty text |
| TraceFilter.PairCopies | src/main/java/org/amoudi/trace/TraceFilter.java:76-91 | everything written for one key is copies of the record |
| TraceFilter.Copies | src/main/java/org/amoudi/trace/TraceFilter.java:71-94 | everything written for one record is copies of it |
| TraceFilter.PairCopiesCount | src/main/java/org/amoudi/trace/TraceFilter.java:76-91 | one key writes one copy per pair that holds |
| TraceFilter.CopiesCountUpTo | src/main/java/org/amoudi/trace/TraceFilter.java:71-94 | the first `n` keys write one copy per satisfied (key, pair) |
| TraceFilter.CopiesCount | src/main/java/org/amoudi/trace/TraceFilter.java:71-92 | a record is written once per satisfied (key, pair), so possibly several times |
| TraceFilter.CopiesWhenSatisfied | src/main/java/org/amoudi/trace/TraceFilter.java:71-92 | a record is written at all exactly when some pair holds for a present, non-empty field |
| TraceFilter.Step | src/main/java/org/amoudi/trace/TraceFilter.java:55-94 | a line not starting with `{` is skipped; a `{` line that does not parse is fatal; otherwise its copies are appended |
| TraceFilter.StepCopies | src/main/java/org/amoudi/trace/TraceFilter.java:55-94 | one line fails exactly when it starts with `{` and does not parse, and otherwise appends exactly its copies |
| TraceFilter.RunFails | src/main/java/org/amoudi/trace/TraceFilter.java:58-69 | the pass fails exactly when some `{` line does not parse |
| TraceFilter.RunWrites | src/main/java/org/amoudi/trace/TraceFilter.java:55-95 | a successful pass writes the copies of every line in input order |
| TraceFilter.Extract | src/main/java/org/amoudi/trace/TraceFilter.java:39-99 | the name, the failure condition, the written records and text, `totalIn` as the line count, and `totalOut` as the number of copies written |
| ThreadFinder.Listed | src/main/java/org/amoudi/trace/ThreadFinder.java:68-73 | the text equals one of the listed values |
| ThreadFinder.AnyMatch | src/main/java/org/amoudi/trace/ThreadFinder.java:64-75 | a record matches exactly when some predicate's field is a string node whose text is listed for it |
| ThreadFinder.NonTextNeverMatches | src/main/java/org/amoudi/trace/ThreadFinder.java:66 | a field that is not a string never matches, whatever its text |
| ThreadFinder.ThreadOf | src/main/java/org/amoudi/trace/ThreadFinder.java:63-70 | the found pair is (`pid.textValue()`, `tid.longValue()`); a record without `pid` dereferences null |
| ThreadFinder.Examined | src/main/java/org/amoudi/trace/ThreadFinder.java:45-62 | a line is looked at exactly when it starts with `{`, parses, and has a `tid`, and then the record looked at is the parsed one |
| ThreadFinder.Step | src/main/java/org/amoudi/trace/ThreadFinder.java:44-75 | a line adds at most one pair and removes none |
| ThreadFinder.StepFinds | src/main/java/org/amoudi/trace/ThreadFinder.java:44-75 | one line fails exactly when its record matches and lacks `pid`, and otherwise adds exactly the pair of a matching record |
| ThreadFinder.RunFails | src/main/java/org/amoudi/trace/ThreadFinder.java:44-76 | the search fails exactly when some matching record lacks `pid` |
| ThreadFinder.RunFinds | src/main/java/org/amoudi/trace/ThreadFinder.java:44-76 | a search that succeeds finds exactly the pairs of the matching records |
| ThreadFinder.ToList | src/main/java/org/amoudi/trace/ThreadFinder.java:79 | the list holds each found pair exactly once |
| ThreadFinder.FindThreads | src/main/java/org/amoudi/trace/ThreadFinder.java:39-80 | the result has no duplicates and holds exactly the pairs of the matching records; a matching record without `pid` is fatal |

## Left out

- File handling is not modelled: existence checks, readers and writers, `forceMkdir`, the
  console messages and `help()`. A file is its sequence of lines. The output is a string
  that is discarded when the tool fails.
- Driver.java and the argument parsing (`filter`, `find`, `getArgumentKey`) are glue
  around the modelled functions.
- Jackson parsing is the `parse` parameter. `findValue` searches nested objects; here it is
  one map lookup per record, so a field found only inside a nested object counts as a
  top-level field.
- `SimpleDateFormat` is the `dateOf` parameter. `new Date(...)` in TimeBreaker's report is
  not modelled.
- TimeBreaker's report text and its `double` ratio columns are not modelled. `Report`
  keeps the figures those lines print.
- Records.AsLong: numbers are integers. Text is read only as an optionally signed run of
  ASCII digits, of any length, and as 0 otherwise. Jackson passes every other text to
  `Double.parseDouble` and casts the result, so two cases differ:
  - a fractional or exponent numeral, or `Infinity`: Jackson reads these as the truncated
    value, or `Long.MAX_VALUE` for `Infinity`, and the model reads them as 0;
  - a digit run beyond the `long` range, which Jackson reads as 0 and the model reads as
    its exact value.
  A JSON number beyond the `long` range is also read as its exact value. Jackson keeps it as
  a `BigIntegerNode`, whose `asLong` keeps only the low 64 bits. Records.LongValue does
  reduce it to the low 64 bits.
- Strings.ParseInt: only the ASCII digits `0`-`9` are read. `Integer.parseInt` also
  accepts the other Unicode decimal digits (such as full-width `７`), so a `flush -> ７`
  line fails here with `BadNumber` where the tool reads 7.
- TreeHeight.WeightedHeight: `double` arithmetic is modelled with exact reals, so rounding
  is ignored. NaN and the infinities are all one "not finite" value. `Double.max`
  ignores negative infinity. Negative infinity needs a zero count with a negative
  total, so it arises only when an `int` size has wrapped negative, from a range wider
  than 2^31 ids (`merge -> -2147483648-2147483646` has size -1). The model then reports
  "not finite" where Java ignores that interval.
- TimeBreaker.Credit: sums, products and differences of `long` values are unbounded; only
  `totalTime` wraps to 64 bits.
- ThreadExtractor.IncrementSum: the `int` counters `totalIn`, `perThread` and `totalOut`
  are unbounded.
- Lineage.Apply: the `int counter` of flushes is unbounded; Java would wrap to negative
  ids after 2^31 - 1 flush records. A record's duration, end `ts` minus begin `ts`, is
  exact, where the `long` subtraction wraps once the difference leaves the `long` range.
- TraceFilter.Extract: the `int` counters `totalIn` and `totalOut` are unbounded.
- TreeHeight.MergeKeys: that live ranges stay pairwise disjoint is not proved. The code
  never checks it, and out-of-order merges break it.
- The iteration order of the `HashMap`s and `HashSet`s is not modelled.
  - The predicate maps are sequences in whatever order the map yields.
  - ThreadFinder's result is a set; ToList's order is arbitrary.
  - TreeHeight's final maxima do not depend on the order.
- A `null` thread id in ThreadExtractor's list, or a null predicate kind in TraceFilter,
  is not representable.
- `JsonNode.toString` is the `show` parameter.

=== FILE: lineage.dfy ===
/** The lineage builder (`LineageComputer.compute`): pairs the begin and end
    events of flushes and merges, numbers the completed flushes 0, 1, 2, ...
    and names each completed merge by the numbers of the flushes its time
    range points at, writing one JSON record per completed operation. */
module Lineage {
  import opened Wrappers
  import opened Strings
  import opened Records

  /** The date format's sample text; every embedded date has its length. */
  const DateSample: string := "2017-10-17-23-08-06-570"
  /** A flush or merge name ends with `<date>_<date>_b`. */
  const SuffixSample: string := DateSample + "_" + DateSample + "_b"
  const SuffixLength: int := |SuffixSample|

  /** The two date texts cut from the end of an event name. The source calls
      the SECOND date of the suffix "begin" and the FIRST one "end". */
  datatype Stamps = Stamps(beginText: string, endText: string)

  /** Cuts `range` (the suffix without its trailing `_b`) out of the name and
      splits it into the two dates; a name shorter than the suffix makes
      `substring` throw. */
  function DecodeSuffix(name: string): (r: Option<Stamps>)
    ensures r.Some? <==> |name| >= 49
    ensures r.Some? ==> r.value.beginText == name[|name| - 25..|name| - 2]
    ensures r.Some? ==> r.value.endText == name[|name| - 49..|name| - 26]
  {
    var beginIndex := |name| - SuffixLength;
    match Substring(name, beginIndex, beginIndex + SuffixLength - 2)
    case None => None
    case Some(range) => Some(Stamps(range[|DateSample| + 1..], range[..|DateSample|]))
  }

  /** Decoding recovers the two dates a producer put at the end of a name. */
  lemma DecodeEncodedName(prefix: string, first: string, second: string)
    requires |first| == |DateSample| && |second| == |DateSample|
    ensures DecodeSuffix(prefix + first + "_" + second + "_b") == Some(Stamps(second, first))
  {
    var name := prefix + first + "_" + second + "_b";
    assert name[|name| - 25..|name| - 2] == second;
    assert name[|name| - 49..|name| - 26] == first;
  }

  datatype Category = Flush | Merge
  datatype Phase = Begin | End

  /** A begin or end event of a flush or merge, with the key of its "begin" date. */
  datatype Event = Event(cat: Category, phase: Phase, stamps: Stamps, beginKey: int, json: Record)

  /** A field that must be present and have non-empty text, else the tool exits. */
  function FieldText(json: Record, key: string): (r: Result<string, Fault>)
    ensures r.Success? <==> key in json && AsText(json[key]) != ""
    ensures r.Success? ==> r.value == AsText(json[key])
    ensures key !in json ==> r == Failure(MissingField(key))
  {
    match Find(json, key)
    case None => Failure(MissingField(key))
    case Some(v) => if AsText(v) == "" then Failure(EmptyField(key)) else Success(AsText(v))
  }

  /** Reads a parsed line up to the category switch: `None` for an event that
      is neither a begin nor an end. `dateOf` stands for the date format (None:
      it throws), returning the date's epoch milliseconds. */
  function DecodeEvent(json: Record, dateOf: string -> Option<int>): (r: Result<Option<Event>, Fault>)
    ensures r.Success? && r.value.Some? ==> var ev := r.value.value;
              && ev.json == json
              && "name" in json && "cat" in json && "ph" in json
              && DecodeSuffix(AsText(json["name"])) == Some(ev.stamps)
              && dateOf(ev.stamps.beginText) == Some(ev.beginKey)
              && AsText(json["cat"]) == (if ev.cat == Flush then "flush" else "merge")
              && AsText(json["ph"]) == (if ev.phase == Begin then "B" else "E")
  {
    var name :- FieldText(json, "name");
    var cat :- FieldText(json, "cat");
    var ph :- FieldText(json, "ph");
    if ph != "B" && ph != "E" then Success(None)
    else
      var stamps :- DecodeSuffix(name).OrFail(IndexOutOfRange);
      var beginKey :- dateOf(stamps.beginText).OrFail(BadDate(stamps.beginText));
      var phase := if ph == "B" then Begin else End;
      if cat == "flush" then Success(Some(Event(Flush, phase, stamps, beginKey, json)))
      else if cat == "merge" then Success(Some(Event(Merge, phase, stamps, beginKey, json)))
      else Failure(UnknownCategory(cat))
  }

  /** Reads one raw line: `None` for a line that is skipped (not a JSON
      object, or neither a begin nor an end event). `parse` stands for Jackson
      (None: it throws). */
  function DecodeLine(line: string, parse: string -> Option<Record>, dateOf: string -> Option<int>)
    : (r: Result<Option<Event>, Fault>)
    ensures Candidate(line).None? ==> r == Success(None)
    ensures Candidate(line).Some? && parse(Candidate(line).value).None? ==>
              r == Failure(Unparseable(Candidate(line).value))
    ensures Candidate(line).Some? && parse(Candidate(line).value).Some? ==>
              r == DecodeEvent(parse(Candidate(line).value).value, dateOf)
  {
    match Candidate(line)
    case None => Success(None)
    case Some(text) =>
      var json :- parse(text).OrFail(Unparseable(text));
      DecodeEvent(json, dateOf)
  }

  /** A record written for a completed operation. A merge's ids are what
      `time2Num.get` returned, `None` standing for Java's null. */
  datatype Emitted =
    | FlushRecord(id: int, duration: int, size: int)
    | MergeRecord(lo: Option<int>, hi: Option<int>, duration: int, size: int)

  /** How string concatenation prints a possibly-null `Integer`. */
  function IdText(id: Option<int>): string {
    match id
    case Some(n) => IntToString(n)
    case None => "null"
  }

  /** The text written for one record (the two templates differ in spacing). */
  function Render(e: Emitted): string {
    match e
    case FlushRecord(id, d, size) =>
      "{\"op\":\"flush\", \"id\":\"" + IntToString(id) + "\", \"duration\":" + IntToString(d)
      + ", \"size\":" + IntToString(size) + "}"
    case MergeRecord(lo, hi, d, size) =>
      "{\"op\":\"merge\",\"id\":\"" + IdText(lo) + "-" + IdText(hi) + "\", \"duration\":" + IntToString(d)
      + ", \"size\":" + IntToString(size) + "}"
  }

  /** The records, each rendered by `render`, separated by `",\n"`, with no
      separator before the first. (The renderer is a parameter so that proofs
      about the framing need not look into the record templates.) */
  function JoinRecords(es: seq<Emitted>, render: Emitted -> string): string
    decreases |es|
  {
    if |es| == 0 then ""
    else if |es| == 1 then render(es[0])
    else JoinRecords(es[..|es| - 1], render) + ",\n" + render(es[|es| - 1])
  }

  /** The ids of the flush records, in writing order. */
  function FlushIds(es: seq<Emitted>): seq<int>
    decreases |es|
  {
    if |es| == 0 then []
    else FlushIds(es[..|es| - 1]) + (if es[|es| - 1].FlushRecord? then [es[|es| - 1].id] else [])
  }

  /** 0, 1, ..., n - 1. */
  function Ids(n: nat): (r: seq<int>)
    ensures |r| == n && forall i :: 0 <= i < n ==> r[i] == i
  {
    seq(n, i => i)
  }

  /** The builder's state: the two category stacks of begin events, the flush
      counter, the date-to-id index, the writer's `first` flag and what has been
      written so far, plus the log of records written. */
  datatype State = State(
    flushStarts: seq<Record>,
    mergeStarts: seq<Record>,
    counter: nat,
    time2Num: map<int, int>,
    first: bool,
    out: string,
    emitted: seq<Emitted>)

  /** Before the first line: empty stacks and index, counter 0, `[` written. */
  const Init: State := State([], [], 0, map[], true, "[\n", [])

  function StackOf(s: State, cat: Category): seq<Record> {
    if cat == Flush then s.flushStarts else s.mergeStarts
  }

  function WithStack(s: State, cat: Category, stack: seq<Record>): (r: State)
    ensures StackOf(r, cat) == stack
    ensures r == s.(flushStarts := r.flushStarts, mergeStarts := r.mergeStarts)
    ensures cat == Flush ==> r.mergeStarts == s.mergeStarts
    ensures cat == Merge ==> r.flushStarts == s.flushStarts
  {
    if cat == Flush then s.(flushStarts := stack) else s.(mergeStarts := stack)
  }

  /** Writes one record, preceded by `",\n"` unless it is the first. */
  function Emit(s: State, e: Emitted): State {
    s.(first := false,
       out := s.out + (if s.first then "" else ",\n") + Render(e),
       emitted := s.emitted + [e])
  }

  /** Everything the builder keeps consistent: the flush ids written so far are
      exactly 0 .. counter-1 in order, the index only holds ids already issued,
      and the output is `[` followed by the records joined by `",\n"`. */
  ghost predicate Valid(s: State) {
    Consistent(s, Render)
  }

  ghost predicate Consistent(s: State, render: Emitted -> string) {
    && FlushIds(s.emitted) == Ids(s.counter)
    && (forall key :: key in s.time2Num ==> 0 <= s.time2Num[key] < s.counter)
    && s.first == (|s.emitted| == 0)
    && s.out == "[\n" + JoinRecords(s.emitted, render)
  }

  /** How one event may change the counter, the index and the output: it
      writes at most one record, after a `",\n"` separator unless it is the
      first; a flush record takes the id `counter`, enters it in the index under
      `key` and advances the counter by one; otherwise neither changes. */
  ghost predicate Advances(s: State, s': State, key: int, render: Emitted -> string) {
    && |s.emitted| <= |s'.emitted| <= |s.emitted| + 1
    && s'.emitted[..|s.emitted|] == s.emitted
    && if |s'.emitted| > |s.emitted| then
         var e := s'.emitted[|s.emitted|];
         && !s'.first
         && s'.out == s.out + (if s.first then "" else ",\n") + render(e)
         && if e.FlushRecord? then
              e.id == s.counter && s'.counter == s.counter + 1 && s'.time2Num == s.time2Num[key := s.counter]
            else
              s'.counter == s.counter && s'.time2Num == s.time2Num
       else
         && s'.first == s.first && s'.out == s.out
         && s'.counter == s.counter && s'.time2Num == s.time2Num
  }

  /** One decoded begin/end event. A begin is pushed on its category's stack;
      an end pops that stack, reads both timestamps and `args`, and writes a
      record only when `args` has a `size`. A flush record takes the next
      counter value and enters it in the index under the "begin" date; a merge
      record looks up both dates in the index. */
  function Apply(s: State, ev: Event, dateOf: string -> Option<int>): (r: Result<State, Fault>)
    // a begin never fails; an end fails exactly when its category's stack is
    // empty, a `ts` or the end's `args` is missing, or a merge's "end" date
    // does not parse once a record is due
    ensures ev.phase == Begin ==> r.Success?
    ensures ev.phase == End ==>
              (r.Failure? <==>
                 var stack := StackOf(s, ev.cat);
                 || |stack| == 0 || "ts" !in stack[|stack| - 1] || "ts" !in ev.json || "args" !in ev.json
                 || (ev.cat == Merge && FindIn(ev.json["args"], "size").Some? && dateOf(ev.stamps.endText).None?))
    ensures ev.phase == End && |StackOf(s, ev.cat)| == 0 ==> r == Failure(EmptyStack)
    // the other category's stack is never touched
    ensures r.Success? ==> StackOf(r.value, if ev.cat == Flush then Merge else Flush)
                           == StackOf(s, if ev.cat == Flush then Merge else Flush)
    // begin pushes, end pops exactly one
    ensures r.Success? && ev.phase == Begin ==>
              r.value == WithStack(s, ev.cat, StackOf(s, ev.cat) + [ev.json])
    ensures r.Success? && ev.phase == End ==>
              |StackOf(s, ev.cat)| > 0 && StackOf(r.value, ev.cat) == StackOf(s, ev.cat)[..|StackOf(s, ev.cat)| - 1]
    // at most one record is written; the counter and the index move only with a flush record
    ensures r.Success? ==> Advances(s, r.value, ev.beginKey, Render)
    // a completed end writes a record exactly when its `args` carries a `size`
    ensures r.Success? && ev.phase == End ==>
              "args" in ev.json
              && (|r.value.emitted| == |s.emitted| + 1 <==> FindIn(ev.json["args"], "size").Some?)
    // flush events only write flush records, merge events only merge records
    ensures r.Success? && |r.value.emitted| > |s.emitted| ==>
              r.value.emitted[|s.emitted|].FlushRecord? == (ev.cat == Flush)
  {
    match ev.phase
    case Begin => Success(WithStack(s, ev.cat, StackOf(s, ev.cat) + [ev.json]))
    case End =>
      var stack := StackOf(s, ev.cat);
      if |stack| == 0 then Failure(EmptyStack)
      else
        var popped := WithStack(s, ev.cat, stack[..|stack| - 1]);
        var startTs :- Timestamp(stack[|stack| - 1]);
        var endTs :- Timestamp(ev.json);
        var args :- Find(ev.json, "args").OrFail(MissingField("args"));
        match FindIn(args, "size")
        case None => Success(popped)
        case Some(sizeNode) =>
          var size := AsLong(sizeNode);
          var duration := endTs - startTs;
          if ev.cat == Flush then
            var n := popped.counter;
            Success(Emit(popped.(time2Num := popped.time2Num[ev.beginKey := n], counter := n + 1),
                         FlushRecord(n, duration, size)))
          else
            var endKey :- dateOf(ev.stamps.endText).OrFail(BadDate(ev.stamps.endText));
            Success(Emit(popped, MergeRecord(Get(popped.time2Num, ev.beginKey),
                                             Get(popped.time2Num, endKey), duration, size)))
  }

  /** `Map.get`: null for a missing key. */
  function Get(m: map<int, int>, key: int): (r: Option<int>)
    ensures r.Some? <==> key in m
    ensures r.Some? ==> r.value == m[key]
  {
    if key in m then Some(m[key]) else None
  }

  /** One input line. */
  function Step(s: State, line: string, parse: string -> Option<Record>, dateOf: string -> Option<int>)
    : (r: Result<State, Fault>)
    ensures Candidate(line).None? ==> r == Success(s)
  {
    var ev :- DecodeLine(line, parse, dateOf);
    match ev
    case None => Success(s)
    case Some(e) => Apply(s, e, dateOf)
  }

  /** The loop over all lines; the first fault ends it. */
  function Run(s: State, lines: seq<string>, parse: string -> Option<Record>, dateOf: string -> Option<int>)
    : Result<State, Fault>
    decreases |lines|
  {
    if |lines| == 0 then Success(s)
    else
      var s' :- Step(s, lines[0], parse, dateOf);
      Run(s', lines[1..], parse, dateOf)
  }

  /** The output of one pass: where it goes and what is written there. */
  datatype Output = Output(fileName: string, text: string)

  /** `LineageComputer.compute`: the output goes next to the input, its
      extension replaced by `.lineage.txt`. A successful pass writes `[`, the
      records joined by `",\n"` and `]`, and the flush records it wrote carry
      the ids 0, 1, 2, ... in writing order. */
  function Compute(path: string, lines: seq<string>, parse: string -> Option<Record>, dateOf: string -> Option<int>)
    : (r: Result<Output, Fault>)
    ensures r.Success? <==> '.' in path && Run(Init, lines, parse, dateOf).Success?
    ensures r.Success? ==> r.value.fileName == StripExtension(path).value + ".lineage.txt"
    ensures r.Success? ==> var s := Run(Init, lines, parse, dateOf).value;
              && r.value.text == "[\n" + JoinRecords(s.emitted, Render) + "\n]"
              && FlushIds(s.emitted) == Ids(s.counter)
  {
    var stem :- StripExtension(path).OrFail(IndexOutOfRange);
    var s :- Run(Init, lines, parse, dateOf);
    RunFromInitValid(lines, parse, dateOf);
    Success(Output(stem + ".lineage.txt", s.out + "\n]"))
  }

  // ---------------------------------------------------------------------------
  // Properties

  lemma JoinRecordsAppend(es: seq<Emitted>, e: Emitted, render: Emitted -> string)
    ensures JoinRecords(es + [e], render) == (if |es| == 0 then "" else JoinRecords(es, render) + ",\n") + render(e)
  {
    assert (es + [e])[..|es|] == es;
  }

  lemma FlushIdsAppend(es: seq<Emitted>, e: Emitted)
    ensures FlushIds(es + [e]) == FlushIds(es) + (if e.FlushRecord? then [e.id] else [])
  {
    assert (es + [e])[..|es|] == es;
  }

  /** Any change of the shape `Advances` allows keeps the builder consistent. */
  lemma AdvancesKeepsValid(s: State, s': State, key: int, render: Emitted -> string)
    requires Consistent(s, render) && Advances(s, s', key, render)
    ensures Consistent(s', render)
  {
    if |s'.emitted| > |s.emitted| {
      var e := s'.emitted[|s.emitted|];
      assert s'.emitted == s.emitted + [e];
      FlushIdsAppend(s.emitted, e);
      JoinRecordsAppend(s.emitted, e, render);
      if e.FlushRecord? {
        assert Ids(s.counter + 1) == Ids(s.counter) + [s.counter];
      }
    } else {
      assert s'.emitted == s.emitted;
    }
  }

  /** Every line keeps the builder consistent. */
  lemma StepKeepsValid(s: State, line: string, parse: string -> Option<Record>, dateOf: string -> Option<int>)
    requires Valid(s)
    requires Step(s, line, parse, dateOf).Success?
    ensures Valid(Step(s, line, parse, dateOf).value)
  {
    var ev := DecodeLine(line, parse, dateOf).value;
    if ev.Some? {
      AdvancesKeepsValid(s, Step(s, line, parse, dateOf).value, ev.value.beginKey, Render);
    }
  }

  /** The whole pass keeps the builder consistent. */
  lemma {:induction false} RunKeepsValid(s: State, lines: seq<string>, parse: string -> Option<Record>,
                                         dateOf: string -> Option<int>)
    requires Valid(s)
    requires Run(s, lines, parse, dateOf).Success?
    ensures Valid(Run(s, lines, parse, dateOf).value)
    decreases |lines|
  {
    if |lines| > 0 {
      StepKeepsValid(s, lines[0], parse, dateOf);
      RunKeepsValid(Step(s, lines[0], parse, dateOf).value, lines[1..], parse, dateOf);
    }
  }

  /** A successful pass from the initial state leaves a consistent builder. */
  lemma RunFromInitValid(lines: seq<string>, parse: string -> Option<Record>, dateOf: string -> Option<int>)
    requires Run(Init, lines, parse, dateOf).Success?
    ensures Valid(Run(Init, lines, parse, dateOf).value)
  {
    InitValid();
    RunKeepsValid(Init, lines, parse, dateOf);
  }

  lemma InitValid()
    ensures Valid(Init)
  {
    assert FlushIds([]) == Ids(0);
  }

  /** An end event whose `args` has no `size` pops its stack and changes
      nothing else: no record, no id, no index entry. */
  lemma SizelessEndOnlyPops(s: State, ev: Event, dateOf: string -> Option<int>)
    requires ev.phase == End && |StackOf(s, ev.cat)| > 0
    requires "ts" in StackOf(s, ev.cat)[|StackOf(s, ev.cat)| - 1] && "ts" in ev.json
    requires "args" in ev.json && FindIn(ev.json["args"], "size").None?
    ensures Apply(s, ev, dateOf)
            == Success(WithStack(s, ev.cat, StackOf(s, ev.cat)[..|StackOf(s, ev.cat)| - 1]))
  {
  }

  /** An end event without `args` is fatal once its stack and timestamps are in place. */
  lemma EndWithoutArgsFails(s: State, ev: Event, dateOf: string -> Option<int>)
    requires ev.phase == End && |StackOf(s, ev.cat)| > 0
    requires "ts" in StackOf(s, ev.cat)[|StackOf(s, ev.cat)| - 1] && "ts" in ev.json
    requires "args" !in ev.json
    ensures Apply(s, ev, dateOf) == Failure(MissingField("args"))
  {
  }

  /** A record written for an end event: its duration is the end's `ts` minus
      the popped begin's `ts`, its size is `args.size`; a flush record takes
      the counter as id, a merge record the index entries of the "begin" date
      and of the "end" date (`None`, printed as null, when absent). */
  lemma EndRecord(s: State, ev: Event, dateOf: string -> Option<int>)
    requires Apply(s, ev, dateOf).Success?
    requires |Apply(s, ev, dateOf).value.emitted| > |s.emitted|
    ensures ev.phase == End && |StackOf(s, ev.cat)| > 0
    ensures var top := StackOf(s, ev.cat)[|StackOf(s, ev.cat)| - 1];
            var e := Apply(s, ev, dateOf).value.emitted[|s.emitted|];
            && "ts" in top && "ts" in ev.json && "args" in ev.json
            && FindIn(ev.json["args"], "size").Some?
            && e.duration == AsLong(ev.json["ts"]) - AsLong(top["ts"])
            && e.size == AsLong(FindIn(ev.json["args"], "size").value)
            && (ev.cat == Flush ==> e == FlushRecord(s.counter, e.duration, e.size))
            && (ev.cat == Merge ==>
                  dateOf(ev.stamps.endText).Some?
                  && e == MergeRecord(Get(s.time2Num, ev.beginKey),
                                      Get(s.time2Num, dateOf(ev.stamps.endText).value), e.duration, e.size))
  {
  }

  /** A merge end never moves the counter or the index. */
  lemma MergeKeepsCounter(s: State, ev: Event, dateOf: string -> Option<int>)
    requires ev.cat == Merge && Apply(s, ev, dateOf).Success?
    ensures Apply(s, ev, dateOf).value.counter == s.counter
    ensures Apply(s, ev, dateOf).value.time2Num == s.time2Num
  {
  }

  /** A parsed line with all three fields whose phase is neither `B` nor `E`
      is skipped, whatever its name and category. */
  lemma OtherPhasesSkipped(s: State, line: string, parse: string -> Option<Record>, dateOf: string -> Option<int>)
    requires Candidate(line).Some? && parse(Candidate(line).value).Some?
    requires var json := parse(Candidate(line).value).value;
             && FieldText(json, "name").Success? && FieldText(json, "cat").Success?
             && FieldText(json, "ph").Success? && FieldText(json, "ph").value !in {"B", "E"}
    ensures Step(s, line, parse, dateOf) == Success(s)
  {
  }

  /** For a begin or end event the name's suffix is cut and its "begin" date
      parsed before the category is looked at: a short name fails even when
      the category is unknown, and an unknown category fails only afterwards. */
  lemma CategoryCheckedAfterSuffix(line: string, parse: string -> Option<Record>, dateOf: string -> Option<int>)
    requires Candidate(line).Some? && parse(Candidate(line).value).Some?
    requires var json := parse(Candidate(line).value).value;
             && FieldText(json, "name").Success? && FieldText(json, "cat").Success?
             && FieldText(json, "ph").Success? && FieldText(json, "ph").value in {"B", "E"}
    ensures var json := parse(Candidate(line).value).value;
            var name := FieldText(json, "name").value;
            var cat := FieldText(json, "cat").value;
            && (|name| < SuffixLength ==> DecodeLine(line, parse, dateOf) == Failure(IndexOutOfRange))
            && ((|name| >= SuffixLength && dateOf(DecodeSuffix(name).value.beginText).Some? && cat !in {"flush", "merge"})
                ==> DecodeLine(line, parse, dateOf) == Failure(UnknownCategory(cat)))
  {
  }
}

=== FILE: numbers.dfy ===
/** Integer helpers shared by the aggregating tools. */
module Numbers {

  /** `Long.min`. */
  function Min(a: int, b: int): int {
    if a <= b then a else b
  }

  /** `Long.max`. */
  function Max(a: int, b: int): int {
    if a >= b then a else b
  }

  /** The sum of a sequence, added left to right. */
  function Sum(xs: seq<int>): int
    decreases |xs|
  {
    if |xs| == 0 then 0 else Sum(xs[..|xs| - 1]) + xs[|xs| - 1]
  }
}

=== FILE: records.dfy ===
/** One trace line as the tools see it once Jackson has parsed it, the few
    `JsonNode` accessors they use, and the line clean-up they all share. */
module Records {
  import opened Wrappers
  import opened Strings

  /** A JSON value. Numbers are integral: the tools only read integers from them. */
  datatype Value =
    | Str(text: string)
    | Num(n: int)
    | Boolean(b: bool)
    | Null
    | Obj(fields: map<string, Value>)

  /** A parsed line, keyed by field name. A key maps to what Jackson's recursive
      `findValue` returns for it; an absent key is `findValue` returning null. */
  type Record = map<string, Value>

  /** `json.findValue(key)` on a parsed line. */
  function Find(r: Record, key: string): Option<Value> {
    if key in r then Some(r[key]) else None
  }

  /** `node.findValue(key)` on a nested value: only objects have fields. */
  function FindIn(v: Value, key: string): (r: Option<Value>)
    ensures r.Some? ==> v.Obj?
  {
    if v.Obj? && key in v.fields then Some(v.fields[key]) else None
  }

  /** `JsonNode.asText()`: the text of a string, the decimal form of a number,
      `true`/`false`, `null`, and the empty string for an object. */
  function AsText(v: Value): (r: string)
    ensures v.Str? ==> r == v.text
    ensures r == "" <==> v == Str("") || v.Obj?
  {
    match v
    case Str(s) => s
    case Num(n) => IntToString(n)
    case Boolean(b) => if b then "true" else "false"
    case Null => "null"
    case Obj(_) => ""
  }

  /** `JsonNode.asLong()`: a number's exact value; for text, the value of an
      optionally signed run of decimal digits once trimmed, else 0; 1 for
      `true`; and 0 for anything else. */
  function AsLong(v: Value): (r: int)
    ensures v.Num? ==> r == v.n
  {
    match v
    case Str(s) => ParseDecimal(Trim(s)).GetOr(0)
    case Num(n) => n
    case Boolean(b) => if b then 1 else 0
    case Null => 0
    case Obj(_) => 0
  }

  /** `JsonNode.longValue()`: a number's value, reduced to its low 64 bits,
      and 0 for every non-number (no conversion). */
  function LongValue(v: Value): (r: int)
    ensures !v.Num? ==> r == 0
    ensures v.Num? ==> r == WrapLong(v.n) && LongMin <= r <= LongMax
    ensures v.Num? && LongMin <= v.n <= LongMax ==> r == v.n
  {
    if v.Num? then WrapLong(v.n) else 0
  }

  /** `JsonNode.textValue()`: the text of a string node, null for every other node. */
  function TextValue(v: Value): (r: Option<string>)
    ensures r.Some? <==> v.Str?
  {
    if v.Str? then Some(v.text) else None
  }

  /** `json.findValue(key).asText()`, which dereferences null when the key is absent. */
  function TextOf(json: Record, key: string): (r: Result<string, Fault>)
    ensures r.Success? <==> key in json
    ensures r.Success? ==> r.value == AsText(json[key])
    ensures r.Failure? ==> r.error == NullDereference(key)
  {
    match Find(json, key)
    case None => Failure(NullDereference(key))
    case Some(v) => Success(AsText(v))
  }

  /** `json.findValue("ts").asLong()`, which dereferences null when there is no `ts`. */
  function Timestamp(json: Record): (r: Result<int, Fault>)
    ensures r.Success? <==> "ts" in json
    ensures r.Success? ==> r.value == AsLong(json["ts"])
    ensures r.Failure? ==> r.error == NullDereference("ts")
  {
    match Find(json, "ts")
    case None => Failure(NullDereference("ts"))
    case Some(v) => Success(AsLong(v))
  }

  /** The part of a raw line handed to the JSON parser: the trimmed line cut
      just after its last `}`, or nothing when the trimmed line does not start
      with `{` (such a line is skipped as "doesn't contain a json object"). */
  function Candidate(line: string): (r: Option<string>)
    ensures r.Some? <==> IsPrefix("{", Trim(line))
    ensures r.Some? ==> IsPrefix(r.value, Trim(line))
    ensures r.Some? && r.value != [] ==> r.value[|r.value| - 1] == '}'
    ensures r.Some? ==> forall k :: |r.value| <= k < |Trim(line)| ==> Trim(line)[k] != '}'
  {
    var t := Trim(line);
    if IsPrefix("{", t) then Some(t[..LastIndexOf(t, '}') + 1]) else None
  }

  /** The output text: `[` and a newline, then every written record followed
      by a comma and a newline (the array is never closed). `show` stands for
      Jackson's `JsonNode.toString`; the extraction
      and filter tools both write this way. */
  function Listing(ws: seq<Record>, show: Record -> string): (r: string)
    ensures IsPrefix("[\n", r)
    decreases |ws|
  {
    if |ws| == 0 then "[\n"
    else
      var r := Listing(ws[..|ws| - 1], show) + show(ws[|ws| - 1]) + ",\n";
      assert r[..2] == Listing(ws[..|ws| - 1], show)[..2];
      r
  }

  /** The listing is the opening bracket followed by each record's line, in order. */
  lemma {:induction false} ListingIsConcat(ws: seq<Record>, show: Record -> string)
    ensures Listing(ws, show) == "[\n" + ConcatMap(w => show(w) + ",\n", ws)
    decreases |ws|
  {
    if |ws| > 0 {
      var ws', w := ws[..|ws| - 1], ws[|ws| - 1];
      ListingIsConcat(ws', show);
      var body := ConcatMap(w => show(w) + ",\n", ws');
      assert "[\n" + body + show(w) + ",\n" == "[\n" + (body + (show(w) + ",\n"));
    }
  }

  /** Why a tool gives up on its input: an exception it lets escape or a
      `System.exit(1)` after printing its usage. */
  datatype Fault =
    | Unparseable(text: string)     // Jackson's parse exception, rethrown
    | MissingField(key: string)     // "doesn't contain a <key> field", then exit
    | EmptyField(key: string)       // "doesn't contain a <key> field of type String", then exit
    | NullDereference(key: string)  // a method called on the null `findValue(key)` returned
    | EmptyStack                    // `Stack.pop` on an empty stack
    | IndexOutOfRange               // `String.substring` with bad bounds
    | BadDate(text: string)         // the date format rejects the text
    | BadNumber(text: string)       // `Integer.parseInt` rejects the text
    | UnknownCategory(cat: string)  // neither flush nor merge, then exit
    | UnknownLine(line: string)     // neither a flush nor a merge line, then exit
    | Diverges                      // a loop that never terminates
    | NoParent                      // `getParentFile()` is null for a path without a directory
}

=== FILE: strings.dfy ===
/** The pieces of `java.lang.String`, `Long.toString` and `Integer.parseInt`
    that the trace tools rely on, over `string` = `seq<char>`. */
module Strings {
  import opened Wrappers

  const Int32Min: int := -0x8000_0000
  const Int32Max: int := 0x7fff_ffff

  predicate IsPrefix(p: string, s: string) {
    |p| <= |s| && s[..|p|] == p
  }

  /** `String.contains`: `t` occurs somewhere in `s` (the empty string occurs everywhere). */
  predicate Contains(s: string, t: string)
    decreases |s|
  {
    IsPrefix(t, s) || (|s| > 0 && Contains(s[1..], t))
  }

  /** `t` occurs in `s` starting at index `i`. */
  predicate OccursAt(s: string, t: string, i: int) {
    0 <= i <= |s| - |t| && s[i..i + |t|] == t
  }

  /** `Contains` holds exactly when `t` occurs at some index of `s`. */
  lemma {:induction false} ContainsIsOccurrence(s: string, t: string)
    ensures Contains(s, t) <==> exists i :: OccursAt(s, t, i)
    decreases |s|
  {
    if IsPrefix(t, s) {
      assert OccursAt(s, t, 0);
    } else if |s| > 0 {
      ContainsIsOccurrence(s[1..], t);
      if Contains(s[1..], t) {
        var i :| OccursAt(s[1..], t, i);
        assert s[i + 1..i + 1 + |t|] == s[1..][i..i + |t|];
        assert OccursAt(s, t, i + 1);
      }
      if exists i :: OccursAt(s, t, i) {
        var i :| OccursAt(s, t, i);
        if i == 0 {
          assert false;
        }
        assert s[1..][i - 1..i - 1 + |t|] == s[i..i + |t|];
        assert OccursAt(s[1..], t, i - 1);
      }
    } else {
      if exists i :: OccursAt(s, t, i) {
        assert false;
      }
    }
  }

  /** Java's `trim` removes every character whose code is at most that of the space. */
  predicate IsTrimmed(c: char) {
    c <= ' '
  }

  /** Index of the first character `trim` keeps, or `|s|` when it keeps none. */
  function TrimStart(s: string): (i: nat)
    ensures i <= |s|
    ensures forall k :: 0 <= k < i ==> IsTrimmed(s[k])
    ensures i < |s| ==> !IsTrimmed(s[i])
    decreases |s|
  {
    if |s| == 0 || !IsTrimmed(s[0]) then 0 else 1 + TrimStart(s[1..])
  }

  /** Index just past the last character `trim` keeps, not going below `lo`. */
  function TrimEnd(s: string, lo: nat): (j: nat)
    requires lo <= |s|
    ensures lo <= j <= |s|
    ensures forall k :: j <= k < |s| ==> IsTrimmed(s[k])
    ensures j > lo ==> !IsTrimmed(s[j - 1])
    decreases |s|
  {
    if |s| == lo || !IsTrimmed(s[|s| - 1]) then |s| else TrimEnd(s[..|s| - 1], lo)
  }

  /** `r` is `s` with the `i` characters before it and those after it all at
      or below the space. */
  ghost predicate TrimmedFrom(s: string, r: string, i: int) {
    && 0 <= i && i + |r| <= |s| && r == s[i..i + |r|]
    && (forall k :: 0 <= k < i ==> IsTrimmed(s[k]))
    && (forall k :: i + |r| <= k < |s| ==> IsTrimmed(s[k]))
  }

  /** `String.trim`: the input with its leading and trailing characters at or
      below the space removed, and no others. */
  function Trim(s: string): (r: string)
    ensures |r| > 0 ==> !IsTrimmed(r[0]) && !IsTrimmed(r[|r| - 1])
    ensures exists i :: TrimmedFrom(s, r, i)
  {
    var lo := TrimStart(s);
    var r := s[lo..TrimEnd(s, lo)];
    assert TrimmedFrom(s, r, lo);
    r
  }

  /** Only one string is `s` with outer characters at or below the space
      removed and none left at either end, so `Trim` is that string. */
  lemma TrimUnique(s: string, r: string, i: int)
    requires TrimmedFrom(s, r, i)
    requires |r| > 0 ==> !IsTrimmed(r[0]) && !IsTrimmed(r[|r| - 1])
    ensures r == Trim(s)
  {
    var t := Trim(s);
    var j :| TrimmedFrom(s, t, j);
    if |r| > 0 && |t| > 0 {
      assert s[i] == r[0] && s[j] == t[0];
      assert i == j;
      assert s[i + |r| - 1] == r[|r| - 1] && s[j + |t| - 1] == t[|t| - 1];
      assert |r| == |t|;
    }
  }

  /** `String.lastIndexOf(char)`: -1 when `c` does not occur. */
  function LastIndexOf(s: string, c: char): (r: int)
    ensures -1 <= r < |s|
    ensures r >= 0 ==> s[r] == c
    ensures forall k :: r < k < |s| ==> s[k] != c
    decreases |s|
  {
    if |s| == 0 then -1
    else if s[|s| - 1] == c then |s| - 1
    else LastIndexOf(s[..|s| - 1], c)
  }

  /** `String.indexOf(char)`: -1 when `c` does not occur. */
  function IndexOf(s: string, c: char): (r: int)
    ensures -1 <= r < |s|
    ensures r >= 0 ==> s[r] == c
    ensures forall k :: 0 <= k < |s| && (r < 0 || k < r) ==> s[k] != c
    decreases |s|
  {
    if |s| == 0 then -1
    else if s[0] == c then 0
    else
      var r := IndexOf(s[1..], c);
      if r < 0 then -1 else r + 1
  }

  /** `String.substring(b, e)`, which throws unless `0 <= b <= e <= length`. */
  function Substring(s: string, b: int, e: int): (r: Option<string>)
    ensures r.Some? <==> 0 <= b <= e <= |s|
    ensures r.Some? ==> |r.value| == e - b && forall k :: 0 <= k < e - b ==> r.value[k] == s[b + k]
  {
    if 0 <= b <= e <= |s| then Some(s[b..e]) else None
  }

  /** Cuts a path at its last `.`: `path.substring(0, path.lastIndexOf('.'))`,
      which throws when the path has no `.` at all. */
  function StripExtension(path: string): (r: Option<string>)
    ensures r.Some? <==> '.' in path
    ensures r.Some? ==> IsPrefix(r.value, path) && |r.value| < |path| && path[|r.value|] == '.'
                        && '.' !in path[|r.value| + 1..]
  {
    var dot := LastIndexOf(path, '.');
    if dot < 0 then None
    else Some(path[..dot])
  }

  /** Concatenation is associative; stated once here so that proofs about
      large states need not find it themselves. */
  lemma AppendAssociates<T>(a: seq<T>, b: seq<T>, c: seq<T>)
    ensures a + b + c == a + (b + c)
  {
  }

  /** The concatenation of `part(x)` for every `x` in `xs`, in order. */
  function ConcatMap<T>(part: T -> string, xs: seq<T>): string
    decreases |xs|
  {
    if |xs| == 0 then "" else ConcatMap(part, xs[..|xs| - 1]) + part(xs[|xs| - 1])
  }

  /** Concatenating the parts of two lists gives the parts of their concatenation. */
  lemma {:induction false} ConcatMapAppend<T>(part: T -> string, a: seq<T>, b: seq<T>)
    ensures ConcatMap(part, a + b) == ConcatMap(part, a) + ConcatMap(part, b)
    decreases |b|
  {
    if |b| > 0 {
      var b', x := b[..|b| - 1], b[|b| - 1];
      assert (a + b)[..|a + b| - 1] == a + b';
      assert (a + b)[|a + b| - 1] == x;
      ConcatMapAppend(part, a, b');
      assert ConcatMap(part, a) + ConcatMap(part, b') + part(x)
          == ConcatMap(part, a) + (ConcatMap(part, b') + part(x));
    } else {
      assert a + b == a;
    }
  }

  // ---------------------------------------------------------------------------
  // Decimal numbers

  predicate IsDigit(c: char) {
    '0' <= c <= '9'
  }

  predicate AllDigits(s: string) {
    forall k :: 0 <= k < |s| ==> IsDigit(s[k])
  }

  function DigitChar(d: nat): (c: char)
    requires d < 10
    ensures IsDigit(c) && (c as int) - ('0' as int) == d
  {
    ('0' as int + d) as char
  }

  function DigitValue(c: char): nat
    requires IsDigit(c)
  {
    (c as int) - ('0' as int)
  }

  /** The value of a string of decimal digits, most significant first. */
  function DigitsValue(s: string): nat
    requires AllDigits(s)
    decreases |s|
  {
    if |s| == 0 then 0 else DigitsValue(s[..|s| - 1]) * 10 + DigitValue(s[|s| - 1])
  }

  /** Decimal text of a natural number, without leading zeros. */
  function NatToString(n: nat): (r: string)
    ensures |r| >= 1 && AllDigits(r)
    ensures |r| > 1 ==> r[0] != '0'
    decreases n
  {
    if n < 10 then [DigitChar(n)] else NatToString(n / 10) + [DigitChar(n % 10)]
  }

  /** `Long.toString` (and string concatenation of an `int`/`long`): a `-` then the digits. */
  function IntToString(n: int): (r: string)
    ensures |r| >= 1
    ensures r[0] == '-' <==> n < 0
    ensures n >= 0 ==> AllDigits(r)
  {
    if n < 0 then "-" + NatToString(-n) else NatToString(n)
  }

  /** Reading back the printed digits of `n` gives `n`. */
  lemma {:induction false} DigitsValueOfNatToString(n: nat)
    ensures DigitsValue(NatToString(n)) == n
    decreases n
  {
    if n >= 10 {
      var s := NatToString(n);
      assert s[..|s| - 1] == NatToString(n / 10);
      DigitsValueOfNatToString(n / 10);
    }
  }

  /** A signed decimal numeral with no width limit: an optional `+` or `-`
      followed by at least one digit. */
  function ParseDecimal(s: string): (r: Option<int>)
    ensures r.Some? && r.value < 0 ==> |s| > 0 && s[0] == '-'
  {
    if |s| > 0 && (s[0] == '-' || s[0] == '+') then
      if |s| > 1 && AllDigits(s[1..]) then
        Some(if s[0] == '-' then 0 - DigitsValue(s[1..]) else DigitsValue(s[1..]))
      else None
    else if |s| > 0 && AllDigits(s) then Some(DigitsValue(s))
    else None
  }

  /** `Integer.parseInt`: a signed decimal numeral whose value fits in 32 bits;
      anything else throws `NumberFormatException` (here `None`). */
  function ParseInt(s: string): (r: Option<int>)
    ensures r.Some? ==> Int32Min <= r.value <= Int32Max
    ensures r.Some? ==> ParseDecimal(s) == r
    ensures ParseDecimal(s).Some? && Int32Min <= ParseDecimal(s).value <= Int32Max ==> r == ParseDecimal(s)
  {
    match ParseDecimal(s)
    case Some(v) => if Int32Min <= v <= Int32Max then Some(v) else None
    case None => None
  }

  /** Printing then parsing a negative number gives it back. */
  lemma ParseDecimalOfNegative(n: int)
    requires n < 0
    ensures ParseDecimal(IntToString(n)) == Some(n)
  {
    var digits := NatToString(-n);
    var s := "-" + digits;
    assert s == IntToString(n);
    assert s[1..] == digits;
    DigitsValueOfNatToString(-n);
    assert |s| > 1 && s[0] == '-' && AllDigits(s[1..]);
  }

  /** Printing then parsing a natural number gives it back. */
  lemma ParseDecimalOfNatural(n: nat)
    ensures ParseDecimal(IntToString(n)) == Some(n)
  {
    var s := IntToString(n);
    assert IsDigit(s[0]);
    DigitsValueOfNatToString(n);
  }

  /** Printing then parsing a decimal gives the number back. */
  lemma ParseDecimalOfIntToString(n: int)
    ensures ParseDecimal(IntToString(n)) == Some(n)
  {
    if n < 0 {
      ParseDecimalOfNegative(n);
    } else {
      ParseDecimalOfNatural(n);
    }
  }

  /** `Integer.parseInt` reads back `Integer.toString` of every 32-bit value. */
  lemma ParseIntOfIntToString(n: int)
    requires Int32Min <= n <= Int32Max
    ensures ParseInt(IntToString(n)) == Some(n)
  {
    ParseDecimalOfIntToString(n);
  }

  /** Java's `long` division, which truncates toward zero (Dafny's `/` is Euclidean). */
  function JavaDiv(a: int, b: int): (q: int)
    requires b > 0
    ensures a >= 0 ==> q == a / b
    ensures a < 0 ==> q * b - b < a <= q * b
  {
    if a >= 0 then a / b else -((-a) / b)
  }

  const TwoTo64: int := 0x1_0000_0000_0000_0000
  const LongMin: int := -0x8000_0000_0000_0000
  const LongMax: int := 0x7fff_ffff_ffff_ffff

  /** Reduces an integer to a Java `long` by two's-complement wrap-around,
      one 2^64 step at a time. */
  function WrapLong(x: int): (r: int)
    ensures LongMin <= r <= LongMax
    ensures LongMin <= x <= LongMax ==> r == x
    decreases if x > LongMax then x - LongMax else if x < LongMin then LongMin - x else 0
  {
    if x > LongMax then WrapLong(x - TwoTo64)
    else if x < LongMin then WrapLong(x + TwoTo64)
    else x
  }

  const TwoTo32: int := 0x1_0000_0000

  /** Reduces an integer to a Java `int` by two's-complement wrap-around,
      one 2^32 step at a time. */
  function WrapInt(x: int): (r: int)
    ensures Int32Min <= r <= Int32Max
    ensures Int32Min <= x <= Int32Max ==> r == x
    ensures Int32Max < x <= Int32Max + TwoTo32 ==> r == x - TwoTo32
    decreases if x > Int32Max then x - Int32Max else if x < Int32Min then Int32Min - x else 0
  {
    if x > Int32Max then WrapInt(x - TwoTo32)
    else if x < Int32Min then WrapInt(x + TwoTo32)
    else x
  }

  /** The wrapped value differs from the exact one by a multiple of 2^64. */
  lemma WrapLongCongruent(x: int)
    ensures (WrapLong(x) - x) % TwoTo64 == 0
  {
    var k := WrapLongSteps(x);
    assert WrapLong(x) - x == -k * TwoTo64;
  }

  /** The number `k` of 2^64 steps the wrap takes. */
  lemma {:induction false} WrapLongSteps(x: int) returns (k: int)
    ensures WrapLong(x) == x - k * TwoTo64
    decreases if x > LongMax then x - LongMax else if x < LongMin then LongMin - x else 0
  {
    if x > LongMax {
      k := WrapLongSteps(x - TwoTo64);
      k := k + 1;
    } else if x < LongMin {
      k := WrapLongSteps(x + TwoTo64);
      k := k - 1;
    } else {
      k := 0;
    }
  }

  /** Two's-complement wrap to 32 bits: `end - start + 1` of the widest merge
      range, from `Integer.MIN_VALUE` to `Integer.MAX_VALUE - 1`, is -1. */
  lemma WrapIntOfWidestRange()
    ensures WrapInt((Int32Max - 1) - Int32Min + 1) == -1
  {
  }
}

=== FILE: threadextractor.dfy ===
/** Extraction of the records of chosen threads (`ThreadExtractor.extract`):
    every record is copied to the output at most once, credited to the first
    requested thread it matches. */
module ThreadExtractor {
  import opened Wrappers
  import opened Strings
  import opened Records
  import opened Numbers

  /** A requested thread: an optional process id, as text, and a thread id. */
  datatype Thread = Thread(pid: Option<string>, tid: int)

  // ---------------------------------------------------------------------------
  // Output file name

  /** The part of the file name one thread adds: `.<pid>.<tid>`, or `.<tid>`
      when no process id was given. */
  function ThreadPart(t: Thread): (r: string)
    ensures t.pid.None? ==> r == "." + IntToString(t.tid)
    ensures t.pid.Some? ==> r == "." + t.pid.value + "." + IntToString(t.tid)
  {
    match t.pid
    case None => "." + IntToString(t.tid)
    case Some(p) => "." + p + "." + IntToString(t.tid)
  }

  /** The output file: `<parent>/<outputDir>/<file name>.filtered`, one part
      per requested thread, then `.json`. */
  function OutputName(parent: string, sep: string, outputDir: string, fileName: string, ts: seq<Thread>): (r: string)
    ensures var stem := parent + sep + outputDir + sep + fileName + ".filtered";
            && IsPrefix(stem, r) && |r| >= |stem| + 5
            && r[|stem|..|r| - 5] == ConcatMap(ThreadPart, ts)
            && r[|r| - 5..] == ".json"
  {
    var stem := parent + sep + outputDir + sep + fileName + ".filtered";
    var r := stem + ConcatMap(ThreadPart, ts) + ".json";
    assert r[..|stem|] == stem;
    assert r[|stem|..|r| - 5] == ConcatMap(ThreadPart, ts);
    assert r[|r| - 5..] == ".json";
    r
  }

  // ---------------------------------------------------------------------------
  // Matching

  /** A record with a thread id matches a requested thread when the numeric
      thread ids agree and either no process id was requested or the record's
      process id reads as the requested text. */
  ghost predicate Matches(t: Thread, json: Record)
    requires "tid" in json
  {
    && t.tid == LongValue(json["tid"])
    && (t.pid.None? || ("pid" in json && t.pid.value == AsText(json["pid"])))
  }

  /** Some requested thread matches the record. */
  ghost predicate AnyMatch(ts: seq<Thread>, json: Record)
    requires "tid" in json
  {
    exists i :: 0 <= i < |ts| && Matches(ts[i], json)
  }

  /** The thread loop from index `t` reaches a requested thread whose thread
      id agrees with the record's and which asks for a process id, while the
      record has none: `processId.asText()` is then called on null. */
  ghost predicate ReachesMissingPid(ts: seq<Thread>, json: Record, t: nat)
    requires "tid" in json
  {
    && "pid" !in json
    && exists i :: t <= i < |ts| && ts[i].tid == LongValue(json["tid"]) && ts[i].pid.Some?
                   && forall j :: t <= j < i ==> !Matches(ts[j], json)
  }

  /** The thread loop from index `t` on: the index of the first requested
      thread that matches. Comparing a requested process id with a record that
      has none dereferences null, but only once the thread ids agree. */
  function FirstMatch(ts: seq<Thread>, json: Record, t: nat): (r: Result<Option<nat>, Fault>)
    requires "tid" in json
    ensures r.Success? && r.value.Some? ==>
              && t <= r.value.value < |ts| && Matches(ts[r.value.value], json)
              && (forall j :: t <= j < r.value.value ==> !Matches(ts[j], json))
    ensures r.Success? && r.value.None? ==> forall j :: t <= j < |ts| ==> !Matches(ts[j], json)
    ensures r.Failure? ==> r.error == NullDereference("pid")
    ensures r.Failure? <==> ReachesMissingPid(ts, json, t)
    ensures "pid" in json ==> r.Success?
    decreases |ts| - t
  {
    MissingPidFirstOrRest(ts, json, t);
    if t >= |ts| then Success(None)
    else if ts[t].tid != LongValue(json["tid"]) then FirstMatch(ts, json, t + 1)
    else if ts[t].pid.None? then Success(Some(t))
    else if "pid" !in json then Failure(NullDereference("pid"))
    else if ts[t].pid.value == AsText(json["pid"]) then Success(Some(t))
    else FirstMatch(ts, json, t + 1)
  }

  /** From index `t`, the loop reaches the failing comparison exactly when
      the thread at `t` is one, or it does not match and a later one is. */
  lemma MissingPidFirstOrRest(ts: seq<Thread>, json: Record, t: nat)
    requires "tid" in json
    ensures ReachesMissingPid(ts, json, t) <==>
              && "pid" !in json && t < |ts|
              && (|| (ts[t].tid == LongValue(json["tid"]) && ts[t].pid.Some?)
                  || (!Matches(ts[t], json) && ReachesMissingPid(ts, json, t + 1)))
  {
    if ReachesMissingPid(ts, json, t) {
      var i :| t <= i < |ts| && ts[i].tid == LongValue(json["tid"]) && ts[i].pid.Some?
               && forall j :: t <= j < i ==> !Matches(ts[j], json);
      if i > t {
        assert !Matches(ts[t], json);
        assert ReachesMissingPid(ts, json, t + 1);
      }
    }
    if "pid" !in json && t < |ts| && !Matches(ts[t], json) && ReachesMissingPid(ts, json, t + 1) {
      var i :| t + 1 <= i < |ts| && ts[i].tid == LongValue(json["tid"]) && ts[i].pid.Some?
               && forall j :: t + 1 <= j < i ==> !Matches(ts[j], json);
      assert forall j :: t <= j < i ==> !Matches(ts[j], json);
    }
  }

  // ---------------------------------------------------------------------------
  // The pass over the lines

  /** The loop state: the records written so far, in order, the per-thread
      counts, and the number of lines read. */
  datatype State = State(written: seq<Record>, perThread: seq<int>, totalIn: nat)

  function Init(ts: seq<Thread>): (r: State)
    ensures |r.perThread| == |ts| && Sum(r.perThread) == 0
  {
    var r := State([], seq(|ts|, _ => 0), 0);
    ZerosSum(|ts|);
    r
  }

  lemma {:induction false} ZerosSum(n: nat)
    ensures Sum(seq(n, _ => 0)) == 0
  {
    if n > 0 {
      assert seq(n, _ => 0)[..n - 1] == seq(n - 1, _ => 0);
      ZerosSum(n - 1);
    }
  }

  /** Adding one to the count of thread `i` adds one to the total. */
  lemma {:induction false} IncrementSum(xs: seq<int>, i: nat)
    requires i < |xs|
    ensures Sum(xs[i := xs[i] + 1]) == Sum(xs) + 1
    decreases |xs|
  {
    var ys := xs[i := xs[i] + 1];
    if i < |xs| - 1 {
      assert ys[..|ys| - 1] == xs[..|xs| - 1][i := xs[i] + 1];
      IncrementSum(xs[..|xs| - 1], i);
    } else {
      assert ys[..|ys| - 1] == xs[..|xs| - 1];
    }
  }

  /** `r` is `st` with one more record written, credited to the first
      requested thread that matches it. */
  ghost predicate CreditedFirst(ts: seq<Thread>, st: State, r: State)
    requires |st.perThread| == |ts|
  {
    && |r.written| == |st.written| + 1 && r.written[..|st.written|] == st.written
    && var json := r.written[|st.written|];
       && "tid" in json
       && exists i :: 0 <= i < |ts| && Matches(ts[i], json)
                      && (forall j :: 0 <= j < i ==> !Matches(ts[j], json))
                      && r.perThread == st.perThread[i := st.perThread[i] + 1]
  }

  /** One raw line: counted; skipped unless it is a JSON object that parses
      and has a thread id; written once, to the first matching thread. */
  /** The line is a JSON object that parses, has a thread id, and brings the
      thread loop to the comparison that dereferences null. */
  ghost predicate Fatal(ts: seq<Thread>, line: string, parse: string -> Option<Record>) {
    && Candidate(line).Some? && parse(Candidate(line).value).Some?
    && var json := parse(Candidate(line).value).value;
       "tid" in json && ReachesMissingPid(ts, json, 0)
  }

  function Step(ts: seq<Thread>, st: State, line: string, parse: string -> Option<Record>): (r: Result<State, Fault>)
    requires |st.perThread| == |ts|
    ensures r.Failure? <==> Fatal(ts, line, parse)
    ensures r.Success? ==> r.value.totalIn == st.totalIn + 1 && |r.value.perThread| == |ts|
    ensures r.Success? ==>
              || (r.value.written == st.written && r.value.perThread == st.perThread)
              || CreditedFirst(ts, st, r.value)
  {
    var counted := st.(totalIn := st.totalIn + 1);
    match Candidate(line)
    case None => Success(counted)
    case Some(text) =>
      match parse(text)
      case None => Success(counted)
      case Some(json) =>
        if "tid" !in json then Success(counted)
        else
          var first :- FirstMatch(ts, json, 0);
          match first
          case None => Success(counted)
          case Some(i) =>
            Success(counted.(written := st.written + [json], perThread := st.perThread[i := st.perThread[i] + 1]))
  }

  function Run(ts: seq<Thread>, st: State, lines: seq<string>, parse: string -> Option<Record>): (r: Result<State, Fault>)
    requires |st.perThread| == |ts|
    ensures r.Success? ==> |r.value.perThread| == |ts|
    decreases |lines|
  {
    if |lines| == 0 then Success(st)
    else
      var next :- Step(ts, st, lines[0], parse);
      Run(ts, next, lines[1..], parse)
  }

  /** Some line among `lines` is fatal. */
  ghost predicate SomeFatal(ts: seq<Thread>, lines: seq<string>, parse: string -> Option<Record>) {
    exists k :: 0 <= k < |lines| && Fatal(ts, lines[k], parse)
  }

  /** Some line is fatal when the first one is or a later one is. */
  lemma SomeFatalFirstOrRest(ts: seq<Thread>, lines: seq<string>, parse: string -> Option<Record>)
    requires |lines| > 0
    ensures SomeFatal(ts, lines, parse) <==> Fatal(ts, lines[0], parse) || SomeFatal(ts, lines[1..], parse)
  {
    var rest := lines[1..];
    if SomeFatal(ts, lines, parse) {
      var k :| 0 <= k < |lines| && Fatal(ts, lines[k], parse);
      if k > 0 {
        assert rest[k - 1] == lines[k];
      }
    }
    if SomeFatal(ts, rest, parse) {
      var k :| 0 <= k < |rest| && Fatal(ts, rest[k], parse);
      assert lines[k + 1] == rest[k];
    }
  }

  /** The pass fails exactly when some line reaches the null dereference. */
  lemma {:induction false} RunFails(ts: seq<Thread>, st: State, lines: seq<string>, parse: string -> Option<Record>)
    requires |st.perThread| == |ts|
    ensures Run(ts, st, lines, parse).Failure? <==> SomeFatal(ts, lines, parse)
    decreases |lines|
  {
    if |lines| > 0 {
      SomeFatalFirstOrRest(ts, lines, parse);
      var s := Step(ts, st, lines[0], parse);
      if s.Success? {
        assert Run(ts, st, lines, parse) == Run(ts, s.value, lines[1..], parse);
        RunFails(ts, s.value, lines[1..], parse);
      }
    }
  }

  /** The records a line contributes to the output: its record when it is a
      JSON object that parses, has a thread id, and matches a requested thread. */
  ghost function Selected(ts: seq<Thread>, line: string, parse: string -> Option<Record>): seq<Record> {
    match Candidate(line)
    case None => []
    case Some(text) =>
      match parse(text)
      case None => []
      case Some(json) => if "tid" in json && AnyMatch(ts, json) then [json] else []
  }

  ghost function SelectedAll(ts: seq<Thread>, lines: seq<string>, parse: string -> Option<Record>): seq<Record>
    decreases |lines|
  {
    if |lines| == 0 then [] else Selected(ts, lines[0], parse) + SelectedAll(ts, lines[1..], parse)
  }

  /** One step appends exactly the line's selected record, if any, credits it
      to one thread, and counts the line. */
  lemma StepWrites(ts: seq<Thread>, st: State, line: string, parse: string -> Option<Record>)
    requires |st.perThread| == |ts| && Step(ts, st, line, parse).Success?
    ensures var r := Step(ts, st, line, parse).value;
            && r.written == st.written + Selected(ts, line, parse)
            && Sum(r.perThread) == Sum(st.perThread) + |Selected(ts, line, parse)|
  {
    var r := Step(ts, st, line, parse).value;
    if r.written != st.written {
      var json := r.written[|st.written|];
      var i :| 0 <= i < |ts| && Matches(ts[i], json) && r.perThread == st.perThread[i := st.perThread[i] + 1];
      IncrementSum(st.perThread, i);
      assert r.written == st.written + [json];
    }
  }

  /** The pass writes exactly the selected records, in input order; the
      per-thread counts add up to the number written, which is at most the
      number of lines read. */
  lemma {:induction false} RunWrites(ts: seq<Thread>, st: State, lines: seq<string>, parse: string -> Option<Record>)
    requires |st.perThread| == |ts| && Run(ts, st, lines, parse).Success?
    requires Sum(st.perThread) == |st.written| <= st.totalIn
    ensures var r := Run(ts, st, lines, parse).value;
            && r.written == st.written + SelectedAll(ts, lines, parse)
            && r.totalIn == st.totalIn + |lines|
            && Sum(r.perThread) == |r.written| <= r.totalIn
    decreases |lines|
  {
    if |lines| > 0 {
      var next := Step(ts, st, lines[0], parse).value;
      StepWrites(ts, st, lines[0], parse);
      RunWrites(ts, next, lines[1..], parse);
      AppendAssociates(st.written, Selected(ts, lines[0], parse), SelectedAll(ts, lines[1..], parse));
    }
  }

  // ---------------------------------------------------------------------------
  // The tool

  /** What one extraction produces: the output file name and text, and the
      counts it reports. */
  datatype Extraction = Extraction(
    fileName: string,
    text: string,
    written: seq<Record>,
    perThread: seq<int>,
    totalIn: nat,
    totalOut: int)

  /** `ThreadExtractor.extract`. `parent` is the absolute path of the input's
      parent directory, `None` when `getParentFile()` is null (a bare file
      name), which dereferences null before any line is read. */
  function Extract(parent: Option<string>, sep: string, outputDir: string, fileName: string, ts: seq<Thread>,
                   lines: seq<string>, parse: string -> Option<Record>, show: Record -> string): (r: Result<Extraction, Fault>)
    ensures parent.None? ==> r == Failure(NoParent)
    ensures r.Success? <==> parent.Some? && Run(ts, Init(ts), lines, parse).Success?
    ensures parent.Some? ==> (r.Failure? <==> SomeFatal(ts, lines, parse))
    ensures r.Success? ==>
              && r.value.fileName == OutputName(parent.value, sep, outputDir, fileName, ts)
              && r.value.written == SelectedAll(ts, lines, parse)
              && r.value.text == Listing(r.value.written, show)
              && r.value.totalIn == |lines|
              && |r.value.perThread| == |ts|
              && r.value.totalOut == Sum(r.value.perThread) == |r.value.written| <= r.value.totalIn
  {
    if parent.None? then Failure(NoParent)
    else
      RunFails(ts, Init(ts), lines, parse);
      var st :- Run(ts, Init(ts), lines, parse);
      RunWrites(ts, Init(ts), lines, parse);
      Success(Extraction(OutputName(parent.value, sep, outputDir, fileName, ts), Listing(st.written, show),
                         st.written, st.perThread, st.totalIn, Sum(st.perThread)))
  }
}

=== FILE: threadfinder.dfy ===
/** Finding the threads that produced matching records (`ThreadFinder.find`):
    the set of (process id, thread id) pairs of every record one of whose
    string fields equals one of the listed values. */
module ThreadFinder {
  import opened Wrappers
  import opened Strings
  import opened Records

  /** The values listed for one field, in the order the tool walks its map. */
  datatype Predicate = Predicate(key: string, values: seq<string>)

  /** A found thread: the record's process id as `textValue` gives it (none
      unless the field is a string) and its thread id as `longValue` gives it. */
  datatype Found = Found(pid: Option<string>, tid: int)

  // ---------------------------------------------------------------------------
  // Matching

  /** One listed value equals the text. */
  function Listed(values: seq<string>, text: string): (r: bool)
    ensures r <==> exists k :: 0 <= k < |values| && values[k] == text
    decreases |values|
  {
    if |values| == 0 then false
    else values[|values| - 1] == text || Listed(values[..|values| - 1], text)
  }

  /** Some predicate's field is a string node whose text is listed for it;
      fields of any other type never match, whatever their text. */
  function AnyMatch(preds: seq<Predicate>, json: Record): (r: bool)
    ensures r <==> exists i :: 0 <= i < |preds| && MatchesAt(preds[i], json)
    decreases |preds|
  {
    if |preds| == 0 then false
    else
      var p := preds[|preds| - 1];
      var here := match Find(json, p.key)
                  case None => false
                  case Some(v) => v.Str? && Listed(p.values, AsText(v));
      here || AnyMatch(preds[..|preds| - 1], json)
  }

  /** The record's field for `p` is a string listed for `p`. */
  ghost predicate MatchesAt(p: Predicate, json: Record) {
    p.key in json && json[p.key].Str? && exists k :: 0 <= k < |p.values| && p.values[k] == json[p.key].text
  }

  /** A record whose text form matches but whose field is not a string is not found. */
  lemma NonTextNeverMatches(p: Predicate, json: Record)
    requires p.key in json && !json[p.key].Str?
    ensures !AnyMatch([p], json)
  {
    assert [p][..0] == [];
  }

  // ---------------------------------------------------------------------------
  // The pass over the lines

  /** The thread of a matching record. `processId.textValue()` dereferences null
      when the record has no process id. */
  function ThreadOf(json: Record): (r: Result<Found, Fault>)
    requires "tid" in json
    ensures r.Success? <==> "pid" in json
    ensures r.Success? ==> r.value == Found(TextValue(json["pid"]), LongValue(json["tid"]))
    ensures r.Failure? ==> r.error == NullDereference("pid")
  {
    match Find(json, "pid")
    case None => Failure(NullDereference("pid"))
    case Some(pid) => Success(Found(TextValue(pid), LongValue(json["tid"])))
  }

  /** The record a line stands for, when it has one the tool looks at: lines
      that do not start with `{`, do not parse, or have no thread id are
      passed over. */
  function Examined(line: string, parse: string -> Option<Record>): (r: Option<Record>)
    ensures r.Some? <==> Candidate(line).Some? && parse(Candidate(line).value).Some?
                         && "tid" in parse(Candidate(line).value).value
    ensures r.Some? ==> r == parse(Candidate(line).value) && "tid" in r.value
  {
    match Candidate(line)
    case None => None
    case Some(text) =>
      match parse(text)
      case None => None
      case Some(json) => if "tid" in json then Some(json) else None
  }

  /** One raw line: adds the thread of an examined record that matches. */
  function Step(preds: seq<Predicate>, found: set<Found>, line: string, parse: string -> Option<Record>): (r: Result<set<Found>, Fault>)
    ensures r.Success? ==> found <= r.value && |r.value - found| <= 1
  {
    match Examined(line, parse)
    case None => Success(found)
    case Some(json) =>
      if AnyMatch(preds, json) then
        var t :- ThreadOf(json);
        Success(found + {t})
      else Success(found)
  }

  function Run(preds: seq<Predicate>, found: set<Found>, lines: seq<string>, parse: string -> Option<Record>): (r: Result<set<Found>, Fault>)
    ensures r.Success? ==> found <= r.value
    decreases |lines|
  {
    if |lines| == 0 then Success(found)
    else
      var next :- Step(preds, found, lines[0], parse);
      Run(preds, next, lines[1..], parse)
  }

  /** The line is examined and its record matches. */
  ghost predicate Matching(preds: seq<Predicate>, line: string, parse: string -> Option<Record>) {
    Examined(line, parse).Some? && AnyMatch(preds, Examined(line, parse).value)
  }

  /** Line `k` is examined and matches. */
  ghost predicate Hit(preds: seq<Predicate>, lines: seq<string>, k: int, parse: string -> Option<Record>) {
    0 <= k < |lines| && Matching(preds, lines[k], parse)
  }

  /** One step fails exactly on a matching record without a process id, and
      otherwise adds the thread of a matching record and nothing else. */
  lemma StepFinds(preds: seq<Predicate>, found: set<Found>, line: string, parse: string -> Option<Record>)
    ensures var r := Step(preds, found, line, parse);
            && (r.Failure? <==> Matching(preds, line, parse) && "pid" !in Examined(line, parse).value)
            && (r.Success? ==> r.value == found + if Matching(preds, line, parse)
                                                  then {ThreadOf(Examined(line, parse).value).value} else {})
  {
  }

  /** Some matching line among `lines` has a record without a process id. */
  ghost predicate Unattributed(preds: seq<Predicate>, lines: seq<string>, parse: string -> Option<Record>) {
    exists k :: Hit(preds, lines, k, parse) && "pid" !in Examined(lines[k], parse).value
  }

  /** A matching line lacks a process id when the first one does or a later one does. */
  lemma UnattributedFirstOrRest(preds: seq<Predicate>, lines: seq<string>, parse: string -> Option<Record>)
    requires |lines| > 0
    ensures Unattributed(preds, lines, parse) <==>
              || (Hit(preds, lines, 0, parse) && "pid" !in Examined(lines[0], parse).value)
              || Unattributed(preds, lines[1..], parse)
  {
    var rest := lines[1..];
    if Unattributed(preds, lines, parse) {
      var k :| Hit(preds, lines, k, parse) && "pid" !in Examined(lines[k], parse).value;
      if k > 0 {
        assert rest[k - 1] == lines[k];
        assert Hit(preds, rest, k - 1, parse);
      }
    }
    if Unattributed(preds, rest, parse) {
      var k :| Hit(preds, rest, k, parse) && "pid" !in Examined(rest[k], parse).value;
      assert lines[k + 1] == rest[k];
      assert Hit(preds, lines, k + 1, parse);
    }
  }

  /** The pass fails exactly when some matching record has no process id. */
  lemma {:induction false} RunFails(preds: seq<Predicate>, found: set<Found>, lines: seq<string>, parse: string -> Option<Record>)
    ensures Run(preds, found, lines, parse).Failure? <==> Unattributed(preds, lines, parse)
    decreases |lines|
  {
    if |lines| > 0 {
      StepFinds(preds, found, lines[0], parse);
      UnattributedFirstOrRest(preds, lines, parse);
      var s := Step(preds, found, lines[0], parse);
      if s.Success? {
        assert Run(preds, found, lines, parse) == Run(preds, s.value, lines[1..], parse);
        RunFails(preds, s.value, lines[1..], parse);
      }
    }
  }

  /** Some matching line among `lines` yields thread `t`. */
  ghost predicate Yields(preds: seq<Predicate>, lines: seq<string>, t: Found, parse: string -> Option<Record>) {
    exists k :: Hit(preds, lines, k, parse) && ThreadOf(Examined(lines[k], parse).value) == Success(t)
  }

  /** A matching line yields `t` when the first one does or a later one does. */
  lemma YieldsFirstOrRest(preds: seq<Predicate>, lines: seq<string>, t: Found, parse: string -> Option<Record>)
    requires |lines| > 0
    ensures Yields(preds, lines, t, parse) <==>
              || (Hit(preds, lines, 0, parse) && ThreadOf(Examined(lines[0], parse).value) == Success(t))
              || Yields(preds, lines[1..], t, parse)
  {
    var rest := lines[1..];
    if Yields(preds, lines, t, parse) {
      var k :| Hit(preds, lines, k, parse) && ThreadOf(Examined(lines[k], parse).value) == Success(t);
      if k > 0 {
        assert rest[k - 1] == lines[k];
        assert Hit(preds, rest, k - 1, parse);
      }
    }
    if Yields(preds, rest, t, parse) {
      var k :| Hit(preds, rest, k, parse) && ThreadOf(Examined(rest[k], parse).value) == Success(t);
      assert lines[k + 1] == rest[k];
      assert Hit(preds, lines, k + 1, parse);
    }
  }

  /** A pass that succeeds finds exactly the threads of the matching records,
      on top of those it started with. */
  lemma {:induction false} RunFinds(preds: seq<Predicate>, found: set<Found>, lines: seq<string>, parse: string -> Option<Record>)
    requires Run(preds, found, lines, parse).Success?
    ensures forall t :: t in Run(preds, found, lines, parse).value <==> t in found || Yields(preds, lines, t, parse)
    decreases |lines|
  {
    if |lines| > 0 {
      StepFinds(preds, found, lines[0], parse);
      var s := Step(preds, found, lines[0], parse).value;
      var rest := lines[1..];
      assert Run(preds, found, lines, parse) == Run(preds, s, rest, parse);
      RunFinds(preds, s, rest, parse);
      forall t {
        YieldsFirstOrRest(preds, lines, t, parse);
      }
    }
  }

  // ---------------------------------------------------------------------------
  // The result list

  /** `new ArrayList<>(threadIds)`: the found threads, each once, in an order
      the hash set decides. */
  method ToList(found: set<Found>) returns (r: seq<Found>)
    ensures forall t :: t in r <==> t in found
    ensures forall i, j :: 0 <= i < j < |r| ==> r[i] != r[j]
    ensures |r| == |found|
  {
    r := [];
    var todo := found;
    while todo != {}
      invariant todo <= found
      invariant forall t :: t in found <==> t in todo || t in r
      invariant forall t :: t in r ==> t !in todo
      invariant forall i, j :: 0 <= i < j < |r| ==> r[i] != r[j]
      invariant |r| + |todo| == |found|
      decreases |todo|
    {
      var t :| t in todo;
      r := r + [t];
      todo := todo - {t};
    }
  }

  /** `ThreadFinder.find` on the lines of a file. */
  method FindThreads(preds: seq<Predicate>, lines: seq<string>, parse: string -> Option<Record>) returns (r: Result<seq<Found>, Fault>)
    ensures r.Failure? <==> Unattributed(preds, lines, parse)
    ensures r.Success? ==>
              && (forall i, j :: 0 <= i < j < |r.value| ==> r.value[i] != r.value[j])
              && (forall t :: t in r.value <==> Yields(preds, lines, t, parse))
  {
    RunFails(preds, {}, lines, parse);
    match Run(preds, {}, lines, parse)
    case Failure(e) =>
      r := Failure(e);
    case Success(found) =>
      RunFinds(preds, {}, lines, parse);
      var list := ToList(found);
      r := Success(list);
  }
}

=== FILE: timebreaker.dfy ===
/** The time breakdown of a single-thread trace (`TimeBreaker.breakdown`):
    begin/end pairs matched on one shared stack give per-name duration
    statistics, instant events give per-name totals from their `args`, and
    every event widens the global time span. */
module TimeBreaker {
  import opened Wrappers
  import opened Strings
  import opened Records
  import opened Numbers

  // ---------------------------------------------------------------------------
  // Per-name statistics

  /** The source's `long[]{sum, min, max, count}`. */
  datatype Stats = Stats(sum: int, min: int, max: int, count: int)

  /** What a name has before its first duration: `{0, Long.MAX_VALUE, Long.MIN_VALUE, 0}`. */
  const NoStats: Stats := Stats(0, LongMax, LongMin, 0)

  /** Credits one duration to a name's statistics. */
  function Credit(s: Stats, d: int): (r: Stats)
    ensures r.sum == s.sum + d && r.count == s.count + 1
    ensures r.min <= d <= r.max && r.min <= s.min && s.max <= r.max
    ensures (r.min == d || r.min == s.min) && (r.max == d || r.max == s.max)
  {
    Stats(s.sum + d, Min(s.min, d), Max(s.max, d), s.count + 1)
  }

  /** The statistics of a sequence of durations credited in order. */
  function StatsOf(ds: seq<int>): Stats
    decreases |ds|
  {
    if |ds| == 0 then NoStats else Credit(StatsOf(ds[..|ds| - 1]), ds[|ds| - 1])
  }

  /** `m` is the least of `start` and the elements of `xs`. */
  ghost predicate IsLeast(xs: seq<int>, start: int, m: int) {
    && m <= start
    && (forall k :: 0 <= k < |xs| ==> m <= xs[k])
    && (m == start || exists k :: 0 <= k < |xs| && xs[k] == m)
  }

  /** `m` is the greatest of `start` and the elements of `xs`. */
  ghost predicate IsGreatest(xs: seq<int>, start: int, m: int) {
    && m >= start
    && (forall k :: 0 <= k < |xs| ==> m >= xs[k])
    && (m == start || exists k :: 0 <= k < |xs| && xs[k] == m)
  }

  /** The statistics of `ds` count its durations and add them up. */
  lemma {:induction false} StatsOfCountSum(ds: seq<int>)
    ensures StatsOf(ds).count == |ds| && StatsOf(ds).sum == Sum(ds)
    decreases |ds|
  {
    if |ds| > 0 {
      StatsOfCountSum(ds[..|ds| - 1]);
    }
  }

  /** The minimum of the statistics of `ds` is the least of its durations and
      the starting sentinel. */
  lemma {:induction false} StatsOfLeast(ds: seq<int>)
    ensures IsLeast(ds, LongMax, StatsOf(ds).min)
    decreases |ds|
  {
    if |ds| > 0 {
      var init := ds[..|ds| - 1];
      var d := ds[|ds| - 1];
      var prev := StatsOf(init).min;
      StatsOfLeast(init);
      var m := StatsOf(ds).min;
      assert m == Min(prev, d);
      forall k | 0 <= k < |ds|
        ensures m <= ds[k]
      {
        if k < |init| {
          assert init[k] == ds[k];
        }
      }
      if m != LongMax && m != d {
        var k :| 0 <= k < |init| && init[k] == prev;
        assert ds[k] == m;
      }
    }
  }

  /** The maximum of the statistics of `ds` is the greatest of its durations
      and the starting sentinel. */
  lemma {:induction false} StatsOfGreatest(ds: seq<int>)
    ensures IsGreatest(ds, LongMin, StatsOf(ds).max)
    decreases |ds|
  {
    if |ds| > 0 {
      var init := ds[..|ds| - 1];
      var d := ds[|ds| - 1];
      var prev := StatsOf(init).max;
      StatsOfGreatest(init);
      var m := StatsOf(ds).max;
      assert m == Max(prev, d);
      forall k | 0 <= k < |ds|
        ensures m >= ds[k]
      {
        if k < |init| {
          assert init[k] == ds[k];
        }
      }
      if m != LongMin && m != d {
        var k :| 0 <= k < |init| && init[k] == prev;
        assert ds[k] == m;
      }
    }
  }

  /** The statistics of `ds` are its length, its sum, and its least and
      greatest element (each bounded by the starting sentinel); with at least
      one duration the minimum is at most the maximum. */
  lemma StatsOfSummary(ds: seq<int>)
    ensures StatsOf(ds).count == |ds| && StatsOf(ds).sum == Sum(ds)
    ensures IsLeast(ds, LongMax, StatsOf(ds).min)
    ensures IsGreatest(ds, LongMin, StatsOf(ds).max)
    ensures |ds| > 0 ==> StatsOf(ds).min <= StatsOf(ds).max
  {
    StatsOfCountSum(ds);
    StatsOfLeast(ds);
    StatsOfGreatest(ds);
    if |ds| > 0 {
      assert StatsOf(ds).min <= ds[0] <= StatsOf(ds).max;
    }
  }

  // ---------------------------------------------------------------------------
  // The pass over the lines

  /** A begin event on the shared stack: its name and its timestamp. */
  datatype Frame = Frame(name: string, ts: int)

  /** An amount credited to a name. */
  datatype Credited = Credited(name: string, amount: int)

  /** The loop state. `credited` and `added` log, in order, the durations
      credited to names and the instant amounts added to names; the source
      does not keep them, they are here to state what the maps hold. */
  datatype State = State(
    globalStart: int,
    globalEnd: int,
    durations: map<string, Stats>,
    instants: map<string, int>,
    starts: seq<Frame>,
    credited: seq<Credited>,
    added: seq<Credited>)

  const Init: State := State(LongMax, LongMin, map[], map[], [], [], [])

  /** The amounts logged for `name`, in order. */
  function AmountsFor(cs: seq<Credited>, name: string): seq<int>
    decreases |cs|
  {
    if |cs| == 0 then []
    else AmountsFor(cs[..|cs| - 1], name) + (if cs[|cs| - 1].name == name then [cs[|cs| - 1].amount] else [])
  }

  /** Each name's statistics are those of the durations credited to it. */
  ghost predicate StatsAgree(m: map<string, Stats>, cs: seq<Credited>) {
    && (forall n :: n in m <==> |AmountsFor(cs, n)| > 0)
    && (forall n :: n in m ==> m[n] == StatsOf(AmountsFor(cs, n)))
  }

  /** Each name's instant total is the sum of the amounts added to it. */
  ghost predicate SumsAgree(m: map<string, int>, cs: seq<Credited>) {
    && (forall n :: n in m <==> |AmountsFor(cs, n)| > 0)
    && (forall n :: n in m ==> m[n] == Sum(AmountsFor(cs, n)))
  }

  /** The maps hold exactly what the logs say. */
  ghost predicate Consistent(st: State) {
    StatsAgree(st.durations, st.credited) && SumsAgree(st.instants, st.added)
  }

  /** Every event widens the global span to include its timestamp. */
  function Observe(st: State, ts: int): (r: State)
    ensures r == st.(globalStart := r.globalStart, globalEnd := r.globalEnd)
    ensures IsLeast([ts], st.globalStart, r.globalStart)
    ensures IsGreatest([ts], st.globalEnd, r.globalEnd)
  {
    assert [ts][0] == ts;
    st.(globalStart := Min(st.globalStart, ts), globalEnd := Max(st.globalEnd, ts))
  }

  /** The record lacks a field its phase reads: `ts` and `ph` always, `name`
      for a begin or an instant. Only these make a parsed line fatal. */
  ghost predicate Incomplete(json: Record) {
    || "ts" !in json || "ph" !in json
    || ((AsText(json["ph"]) == "B" || AsText(json["ph"]) == "i") && "name" !in json)
  }

  /** One parsed line: read `ts` and widen the span, then switch on `ph`. */
  function Apply(st: State, json: Record): (r: Result<State, Fault>)
    ensures "ts" !in json ==> r == Failure(NullDereference("ts"))
    ensures r.Failure? <==> Incomplete(json)
    ensures r.Success? ==> var ts := AsLong(json["ts"]);
              && IsLeast([ts], st.globalStart, r.value.globalStart)
              && IsGreatest([ts], st.globalEnd, r.value.globalEnd)
    // a begin pushes its name and timestamp on the one shared stack
    ensures r.Success? && AsText(json["ph"]) == "B" ==>
              && "name" in json
              && r.value == Observe(st, AsLong(json["ts"])).(starts := st.starts + [Frame(AsText(json["name"]), AsLong(json["ts"]))])
    // an end pops the top frame whatever its name and credits that frame's name
    ensures r.Success? && AsText(json["ph"]) == "E" && |st.starts| > 0 ==>
              var top := st.starts[|st.starts| - 1];
              var d := AsLong(json["ts"]) - top.ts;
              && r.value.starts == st.starts[..|st.starts| - 1]
              && r.value.credited == st.credited + [Credited(top.name, d)]
              && r.value.durations
                 == st.durations[top.name := Credit(if top.name in st.durations then st.durations[top.name] else NoStats, d)]
              && r.value.instants == st.instants && r.value.added == st.added
    // an instant reads its name, then adds to its total only if all its args are there
    ensures r.Success? && AsText(json["ph"]) == "i" ==>
              && "name" in json
              && r.value == AddInstant(Observe(st, AsLong(json["ts"])), AsText(json["name"]), json)
    ensures r.Success? && AsText(json["ph"]) != "B" && AsText(json["ph"]) != "E" ==>
              r.value.starts == st.starts
    // an end with nothing to pop, and an unknown phase, only widen the span
    ensures r.Success? && ((AsText(json["ph"]) == "E" && |st.starts| == 0)
                           || AsText(json["ph"]) !in {"B", "E", "i"}) ==>
              r.value == Observe(st, AsLong(json["ts"]))
    ensures r.Success? && AsText(json["ph"]) != "E" ==> r.value.durations == st.durations && r.value.credited == st.credited
    ensures r.Success? && AsText(json["ph"]) != "i" ==> r.value.instants == st.instants && r.value.added == st.added
  {
    var ts :- Timestamp(json);
    var seen := Observe(st, ts);
    var phase :- TextOf(json, "ph");
    if phase == "B" then
      var name :- TextOf(json, "name");
      Success(seen.(starts := st.starts + [Frame(name, ts)]))
    else if phase == "E" then
      if |st.starts| == 0 then Success(seen)
      else
        var top := st.starts[|st.starts| - 1];
        var d := ts - top.ts;
        var before := if top.name in st.durations then st.durations[top.name] else NoStats;
        Success(seen.(starts := st.starts[..|st.starts| - 1],
                      durations := st.durations[top.name := Credit(before, d)],
                      credited := st.credited + [Credited(top.name, d)]))
    else if phase == "i" then
      var name :- TextOf(json, "name");
      Success(AddInstant(seen, name, json))
    else Success(seen)
  }

  /** The instant branch after the name is read: `avg-duration-ns * count`
      is added to the name's total only when `args`, `count` and
      `avg-duration-ns` are all found. */
  function AddInstant(st: State, name: string, json: Record): (r: State)
    ensures r == st.(instants := r.instants, added := r.added)
    ensures r.added != st.added <==>
              "args" in json && FindIn(json["args"], "count").Some?
              && FindIn(json["args"], "avg-duration-ns").Some?
    ensures r.added != st.added ==>
              var amount := AsLong(FindIn(json["args"], "avg-duration-ns").value)
                            * AsLong(FindIn(json["args"], "count").value);
              && r.added == st.added + [Credited(name, amount)]
              && r.instants == st.instants[name := (if name in st.instants then st.instants[name] else 0) + amount]
    ensures r.added == st.added ==> r.instants == st.instants
  {
    match Find(json, "args")
    case None => st
    case Some(args) =>
      match FindIn(args, "count")
      case None => st
      case Some(count) =>
        match FindIn(args, "avg-duration-ns")
        case None => st
        case Some(avg) =>
          var amount := AsLong(avg) * AsLong(count);
          var before := if name in st.instants then st.instants[name] else 0;
          st.(instants := st.instants[name := before + amount], added := st.added + [Credited(name, amount)])
  }

  /** One raw line: skipped unless it is a JSON object; a parse failure is fatal. */
  function Step(st: State, line: string, parse: string -> Option<Record>): (r: Result<State, Fault>)
    ensures Candidate(line).None? ==> r == Success(st)
  {
    match Candidate(line)
    case None => Success(st)
    case Some(text) =>
      match parse(text)
      case None => Failure(Unparseable(text))
      case Some(json) => Apply(st, json)
  }

  function Run(st: State, lines: seq<string>, parse: string -> Option<Record>): Result<State, Fault>
    decreases |lines|
  {
    if |lines| == 0 then Success(st)
    else
      var next :- Step(st, lines[0], parse);
      Run(next, lines[1..], parse)
  }

  // ---------------------------------------------------------------------------
  // Properties of the pass

  lemma AmountsForAppend(cs: seq<Credited>, c: Credited, n: string)
    ensures AmountsFor(cs + [c], n) == AmountsFor(cs, n) + (if c.name == n then [c.amount] else [])
  {
    assert (cs + [c])[..|cs|] == cs;
  }

  /** Crediting a duration the way an end event does keeps the statistics
      in agreement with the log. */
  lemma CreditKeepsStatsAgree(m: map<string, Stats>, cs: seq<Credited>, c: Credited)
    requires StatsAgree(m, cs)
    ensures StatsAgree(m[c.name := Credit(if c.name in m then m[c.name] else NoStats, c.amount)], cs + [c])
  {
    var m' := m[c.name := Credit(if c.name in m then m[c.name] else NoStats, c.amount)];
    forall n
      ensures n in m' <==> |AmountsFor(cs + [c], n)| > 0
      ensures n in m' ==> m'[n] == StatsOf(AmountsFor(cs + [c], n))
    {
      AmountsForAppend(cs, c, n);
      if n == c.name {
        var ds := AmountsFor(cs, n);
        assert (ds + [c.amount])[..|ds|] == ds;
        assert StatsOf(ds + [c.amount]) == Credit(StatsOf(ds), c.amount);
        assert (if n in m then m[n] else NoStats) == StatsOf(ds);
      } else {
        assert AmountsFor(cs + [c], n) == AmountsFor(cs, n);
      }
    }
  }

  /** Adding an instant amount the way an instant event does keeps the
      totals in agreement with the log. */
  lemma AddKeepsSumsAgree(m: map<string, int>, cs: seq<Credited>, c: Credited)
    requires SumsAgree(m, cs)
    ensures SumsAgree(m[c.name := (if c.name in m then m[c.name] else 0) + c.amount], cs + [c])
  {
    var m' := m[c.name := (if c.name in m then m[c.name] else 0) + c.amount];
    forall n
      ensures n in m' <==> |AmountsFor(cs + [c], n)| > 0
      ensures n in m' ==> m'[n] == Sum(AmountsFor(cs + [c], n))
    {
      AmountsForAppend(cs, c, n);
      if n == c.name {
        var ds := AmountsFor(cs, n);
        assert (ds + [c.amount])[..|ds|] == ds;
        assert Sum(ds + [c.amount]) == Sum(ds) + c.amount;
        assert (if n in m then m[n] else 0) == Sum(ds);
      } else {
        assert AmountsFor(cs + [c], n) == AmountsFor(cs, n);
      }
    }
  }

  /** Each parsed line keeps the maps in agreement with the logs. */
  lemma ApplyKeepsConsistent(st: State, json: Record)
    requires Consistent(st)
    requires Apply(st, json).Success?
    ensures Consistent(Apply(st, json).value)
  {
    var r := Apply(st, json).value;
    var phase := AsText(json["ph"]);
    if phase == "E" && |st.starts| > 0 {
      var top := st.starts[|st.starts| - 1];
      CreditKeepsConsistent(st, r, Credited(top.name, AsLong(json["ts"]) - top.ts));
    } else if phase == "i" && r.added != st.added {
      var args := json["args"];
      var amount := AsLong(FindIn(args, "avg-duration-ns").value) * AsLong(FindIn(args, "count").value);
      AddKeepsConsistent(st, r, Credited(AsText(json["name"]), amount));
    } else {
      SameLogsKeepConsistent(st, r);
    }
  }

  /** Crediting one duration to the log and to its name's statistics keeps them agreeing. */
  lemma CreditKeepsConsistent(st: State, r: State, c: Credited)
    requires Consistent(st)
    requires r.credited == st.credited + [c]
    requires r.durations == st.durations[c.name := Credit(if c.name in st.durations then st.durations[c.name] else NoStats, c.amount)]
    requires r.instants == st.instants && r.added == st.added
    ensures Consistent(r)
  {
    CreditKeepsStatsAgree(st.durations, st.credited, c);
  }

  /** Adding one amount to the log and to its name's instant total keeps them agreeing. */
  lemma AddKeepsConsistent(st: State, r: State, c: Credited)
    requires Consistent(st)
    requires r.added == st.added + [c]
    requires r.instants == st.instants[c.name := (if c.name in st.instants then st.instants[c.name] else 0) + c.amount]
    requires r.durations == st.durations && r.credited == st.credited
    ensures Consistent(r)
  {
    AddKeepsSumsAgree(st.instants, st.added, c);
  }

  lemma SameLogsKeepConsistent(st: State, r: State)
    requires Consistent(st)
    requires r.durations == st.durations && r.credited == st.credited
    requires r.instants == st.instants && r.added == st.added
    ensures Consistent(r)
  {
  }

  lemma StepKeepsConsistent(st: State, line: string, parse: string -> Option<Record>)
    requires Consistent(st)
    requires Step(st, line, parse).Success?
    ensures Consistent(Step(st, line, parse).value)
  {
    var text := Candidate(line);
    if text.Some? {
      ApplyKeepsConsistent(st, parse(text.value).value);
    }
  }

  lemma {:induction false} RunKeepsConsistent(st: State, lines: seq<string>, parse: string -> Option<Record>)
    requires Consistent(st)
    requires Run(st, lines, parse).Success?
    ensures Consistent(Run(st, lines, parse).value)
    decreases |lines|
  {
    if |lines| > 0 {
      StepKeepsConsistent(st, lines[0], parse);
      RunKeepsConsistent(Step(st, lines[0], parse).value, lines[1..], parse);
    }
  }

  /** The timestamp a raw line contributes: one when it reaches the JSON
      parser, parses and carries a `ts`, none otherwise. */
  function LineStamp(line: string, parse: string -> Option<Record>): (r: seq<int>)
    ensures |r| <= 1
  {
    match Candidate(line)
    case None => []
    case Some(text) =>
      match parse(text)
      case None => []
      case Some(json) => if "ts" in json then [AsLong(json["ts"])] else []
  }

  /** The timestamps of all the lines, in order. */
  function Stamps(lines: seq<string>, parse: string -> Option<Record>): seq<int>
    decreases |lines|
  {
    if |lines| == 0 then [] else LineStamp(lines[0], parse) + Stamps(lines[1..], parse)
  }

  /** Each step widens the span by the line's timestamp, if any. */
  lemma StepSpan(st: State, line: string, parse: string -> Option<Record>)
    requires Step(st, line, parse).Success?
    ensures IsLeast(LineStamp(line, parse), st.globalStart, Step(st, line, parse).value.globalStart)
    ensures IsGreatest(LineStamp(line, parse), st.globalEnd, Step(st, line, parse).value.globalEnd)
  {
  }

  /** Taking the least in two stretches takes the least of the whole. */
  lemma LeastConcat(xs: seq<int>, ys: seq<int>, start: int, mid: int, m: int)
    requires IsLeast(xs, start, mid) && IsLeast(ys, mid, m)
    ensures IsLeast(xs + ys, start, m)
  {
    if m != start {
      if m == mid {
        var k :| 0 <= k < |xs| && xs[k] == mid;
        assert (xs + ys)[k] == m;
      } else {
        var k :| 0 <= k < |ys| && ys[k] == m;
        assert (xs + ys)[|xs| + k] == m;
      }
    }
  }

  lemma GreatestConcat(xs: seq<int>, ys: seq<int>, start: int, mid: int, m: int)
    requires IsGreatest(xs, start, mid) && IsGreatest(ys, mid, m)
    ensures IsGreatest(xs + ys, start, m)
  {
    if m != start {
      if m == mid {
        var k :| 0 <= k < |xs| && xs[k] == mid;
        assert (xs + ys)[k] == m;
      } else {
        var k :| 0 <= k < |ys| && ys[k] == m;
        assert (xs + ys)[|xs| + k] == m;
      }
    }
  }

  /** The global start and end are the least and greatest timestamp over
      every parsed line, whatever its phase, starting from the span given. */
  lemma {:induction false} RunSpan(st: State, lines: seq<string>, parse: string -> Option<Record>)
    requires Run(st, lines, parse).Success?
    ensures IsLeast(Stamps(lines, parse), st.globalStart, Run(st, lines, parse).value.globalStart)
    ensures IsGreatest(Stamps(lines, parse), st.globalEnd, Run(st, lines, parse).value.globalEnd)
    decreases |lines|
  {
    if |lines| > 0 {
      var next := Step(st, lines[0], parse).value;
      var r := Run(st, lines, parse).value;
      assert r == Run(next, lines[1..], parse).value;
      StepSpan(st, lines[0], parse);
      RunSpan(next, lines[1..], parse);
      LeastConcat(LineStamp(lines[0], parse), Stamps(lines[1..], parse), st.globalStart, next.globalStart, r.globalStart);
      GreatestConcat(LineStamp(lines[0], parse), Stamps(lines[1..], parse), st.globalEnd, next.globalEnd, r.globalEnd);
    }
  }

  // ---------------------------------------------------------------------------
  // The report

  /** The figures the report prints: the span, the total time, each name's
      duration statistics, and each name's instant total in microseconds. */
  datatype Report = Report(
    globalStart: int,
    globalEnd: int,
    totalTime: int,
    durations: map<string, Stats>,
    instants: map<string, int>)

  /** Nanoseconds to microseconds, `/ 1000L` on every total. */
  function Micros(m: map<string, int>): (r: map<string, int>)
    ensures r.Keys == m.Keys
    ensures forall n :: n in m ==> r[n] == JavaDiv(m[n], 1000)
  {
    map n | n in m :: JavaDiv(m[n], 1000)
  }

  /** The report of a finished pass: the span and duration statistics as
      found, the instant totals in microseconds, and the total time as a 64-bit
      difference. */
  function Summary(st: State): (r: Report)
    ensures r.durations == st.durations && r.instants.Keys == st.instants.Keys
  {
    Report(st.globalStart, st.globalEnd, WrapLong(st.globalEnd - st.globalStart), st.durations, Micros(st.instants))
  }

  /** The line starts with `{` and does not parse, or its record lacks a field
      its phase reads. */
  ghost predicate Rejected(line: string, parse: string -> Option<Record>) {
    && Candidate(line).Some?
    && (parse(Candidate(line).value).None? || Incomplete(parse(Candidate(line).value).value))
  }

  /** One line fails exactly when it is rejected. */
  lemma StepFails(st: State, line: string, parse: string -> Option<Record>)
    ensures Step(st, line, parse).Failure? <==> Rejected(line, parse)
  {
  }

  /** The pass fails exactly when some line is rejected; what was read before
      never matters, since no event's failure depends on the stack or the maps. */
  lemma {:induction false} RunFails(st: State, lines: seq<string>, parse: string -> Option<Record>)
    ensures Run(st, lines, parse).Failure? <==> exists k :: 0 <= k < |lines| && Rejected(lines[k], parse)
    decreases |lines|
  {
    if |lines| > 0 {
      var s := Step(st, lines[0], parse);
      StepFails(st, lines[0], parse);
      if s.Success? {
        var rest := lines[1..];
        assert Run(st, lines, parse) == Run(s.value, rest, parse);
        RunFails(s.value, rest, parse);
        if exists k :: 0 <= k < |lines| && Rejected(lines[k], parse) {
          var k :| 0 <= k < |lines| && Rejected(lines[k], parse);
          assert k > 0 && rest[k - 1] == lines[k];
          assert Rejected(rest[k - 1], parse);
        }
        if exists k :: 0 <= k < |rest| && Rejected(rest[k], parse) {
          var k :| 0 <= k < |rest| && Rejected(rest[k], parse);
          assert lines[k + 1] == rest[k];
          assert Rejected(lines[k + 1], parse);
        }
      }
    }
  }

  /** What a report says about a pass over `lines` that ended in `st`: a name
      has duration statistics exactly when some end event credited it, and they
      are the count, sum, least and greatest of its credited durations; an
      instant total is the truncated thousandth of its added amounts; the span
      is the least and greatest timestamp of all parsed lines, and the total
      time is their difference wrapped to a `long`. */
  ghost predicate ReportsPass(rep: Report, st: State, lines: seq<string>, parse: string -> Option<Record>) {
    && ReportsDurations(rep, st)
    && ReportsInstants(rep, st)
    && IsLeast(Stamps(lines, parse), LongMax, rep.globalStart)
    && IsGreatest(Stamps(lines, parse), LongMin, rep.globalEnd)
    && rep.totalTime == WrapLong(rep.globalEnd - rep.globalStart)
  }

  ghost predicate ReportsDurations(rep: Report, st: State) {
    && (forall n :: n in rep.durations <==> |AmountsFor(st.credited, n)| > 0)
    && (forall n :: n in rep.durations ==>
          var ds := AmountsFor(st.credited, n);
          && rep.durations[n].count == |ds| && rep.durations[n].sum == Sum(ds)
          && IsLeast(ds, LongMax, rep.durations[n].min)
          && IsGreatest(ds, LongMin, rep.durations[n].max)
          && rep.durations[n].min <= rep.durations[n].max)
  }

  ghost predicate ReportsInstants(rep: Report, st: State) {
    && (forall n :: n in rep.instants <==> |AmountsFor(st.added, n)| > 0)
    && (forall n :: n in rep.instants ==> rep.instants[n] == JavaDiv(Sum(AmountsFor(st.added, n)), 1000))
  }

  /** The summary's duration statistics are those of the credited durations. */
  lemma SummaryReportsDurations(st: State)
    requires Consistent(st)
    ensures ReportsDurations(Summary(st), st)
  {
    forall n | n in st.durations {
      StatsOfSummary(AmountsFor(st.credited, n));
    }
  }

  /** The summary's instant totals are the thousandths of the added amounts. */
  lemma SummaryReportsInstants(st: State)
    requires Consistent(st)
    ensures ReportsInstants(Summary(st), st)
  {
  }

  /** The summary keeps the span and wraps its difference to a `long`. */
  lemma SummarySpan(st: State)
    ensures Summary(st).globalStart == st.globalStart && Summary(st).globalEnd == st.globalEnd
    ensures Summary(st).totalTime == WrapLong(Summary(st).globalEnd - Summary(st).globalStart)
  {
  }

  /** The summary of a pass from the initial state reports that pass. */
  lemma SummaryReportsPass(lines: seq<string>, parse: string -> Option<Record>)
    requires Run(Init, lines, parse).Success?
    ensures ReportsPass(Summary(Run(Init, lines, parse).value), Run(Init, lines, parse).value, lines, parse)
  {
    var st := Run(Init, lines, parse).value;
    RunKeepsConsistent(Init, lines, parse);
    RunSpan(Init, lines, parse);
    SummaryReportsDurations(st);
    SummaryReportsInstants(st);
    SummarySpan(st);
    assert ReportsPass(Summary(st), st, lines, parse);
  }

  /** `TimeBreaker.breakdown`: replay the lines, then divide the instant
      totals by 1000 (nanoseconds to microseconds, truncating toward zero).
      The total time is a 64-bit subtraction, so with no events at all it
      wraps around from `Long.MIN_VALUE - Long.MAX_VALUE` to 1. */
  function Breakdown(lines: seq<string>, parse: string -> Option<Record>): (r: Result<Report, Fault>)
    ensures r.Failure? <==> exists k :: 0 <= k < |lines| && Rejected(lines[k], parse)
    ensures r.Success? ==> Run(Init, lines, parse).Success?
                           && ReportsPass(r.value, Run(Init, lines, parse).value, lines, parse)
  {
    RunFails(Init, lines, parse);
    match Run(Init, lines, parse)
    case Failure(e) => Failure(e)
    case Success(st) =>
      SummaryReportsPass(lines, parse);
      Success(Summary(st))
  }

  /** With no events the span stays at its sentinels and the total time is 1. */
  lemma EmptyTrace(parse: string -> Option<Record>)
    ensures Breakdown([], parse).Success?
    ensures Breakdown([], parse).value.globalStart == LongMax
    ensures Breakdown([], parse).value.globalEnd == LongMin
    ensures Breakdown([], parse).value.totalTime == 1
  {
  }
}

=== FILE: tracefilter.dfy ===
/** Filtering a trace by field predicates (`TraceFilter.extract`): a record is
    copied to the output once for every predicate pair it satisfies. */
module TraceFilter {
  import opened Wrappers
  import opened Strings
  import opened Records

  const Exact: char := 'e'
  const ContainsKind: char := 'c'

  /** One `-e<key> <value>` or `-c<key> <value>` argument: a kind and a value. */
  datatype Pair = Pair(kind: char, value: string)

  /** The predicates, one entry per key, in the order the tool walks its map. */
  datatype Predicate = Predicate(key: string, pairs: seq<Pair>)

  // ---------------------------------------------------------------------------
  // Output file name

  /** The part of the file name one predicate key adds. */
  function KeyPart(p: Predicate): string {
    "." + p.key
  }

  /** The output file: the absolute path cut at its last `.`, then `.filtered`,
      `.<key>` per predicate, then `.json`. A path without a `.` makes the cut throw. */
  function OutputName(absPath: string, preds: seq<Predicate>): (r: Result<string, Fault>)
    ensures r.Failure? <==> '.' !in absPath
    ensures r.Failure? ==> r.error == IndexOutOfRange
    ensures r.Success? ==>
              var stem := StripExtension(absPath).value + ".filtered";
              && IsPrefix(stem, r.value) && |r.value| >= |stem| + 5
              && r.value[|stem|..|r.value| - 5] == ConcatMap(KeyPart, preds)
              && r.value[|r.value| - 5..] == ".json"
  {
    match StripExtension(absPath)
    case None => Failure(IndexOutOfRange)
    case Some(base) =>
      var stem := base + ".filtered";
      var r := stem + ConcatMap(KeyPart, preds) + ".json";
      assert r[..|stem|] == stem;
      assert r[|stem|..|r| - 5] == ConcatMap(KeyPart, preds);
      assert r[|r| - 5..] == ".json";
      Success(r)
  }

  // ---------------------------------------------------------------------------
  // Matching

  /** Whether one pair lets a record through, given the text of its field: an
      exact pair needs equal text, a contains pair needs the value inside the
      text, and a pair of any other kind falls through the `switch` and always
      does. */
  function PairHolds(p: Pair, text: string): (r: bool)
    ensures p.kind == Exact ==> (r <==> text == p.value)
    ensures p.kind == ContainsKind ==> (r <==> exists k :: OccursAt(text, p.value, k))
    ensures p.kind != Exact && p.kind != ContainsKind ==> r
  {
    if p.kind == Exact then text == p.value
    else if p.kind == ContainsKind then
      ContainsIsOccurrence(text, p.value);
      Contains(text, p.value)
    else true
  }

  /** The field text a predicate looks at, when there is one: absent fields and
      fields whose text is empty are never matched. */
  function FieldText(json: Record, key: string): (r: Option<string>)
    ensures r.Some? <==> key in json && AsText(json[key]) != ""
    ensures r.Some? ==> r.value == AsText(json[key])
  {
    match Find(json, key)
    case None => None
    case Some(v) => if AsText(v) == "" then None else Some(AsText(v))
  }

  /** The copies of `json` written for the pairs of one key with field text `text`. */
  function PairCopies(pairs: seq<Pair>, text: string, json: Record): (r: seq<Record>)
    ensures forall k :: 0 <= k < |r| ==> r[k] == json
    decreases |pairs|
  {
    if |pairs| == 0 then []
    else PairCopies(pairs[..|pairs| - 1], text, json) + (if PairHolds(pairs[|pairs| - 1], text) then [json] else [])
  }

  /** The copies of `json` written for all predicates, in order. */
  function Copies(preds: seq<Predicate>, json: Record): (r: seq<Record>)
    ensures forall k :: 0 <= k < |r| ==> r[k] == json
    decreases |preds|
  {
    if |preds| == 0 then []
    else
      var p := preds[|preds| - 1];
      Copies(preds[..|preds| - 1], json)
        + match FieldText(json, p.key)
          case None => []
          case Some(text) => PairCopies(p.pairs, text, json)
  }

  /** The pair `pr` of the predicate on `key` is satisfied by `json`: the field
      is present, its text is not empty, and the pair holds for that text. */
  ghost predicate Holds(json: Record, key: string, pr: Pair) {
    key in json && AsText(json[key]) != "" && PairHolds(pr, AsText(json[key]))
  }

  /** The satisfied positions `(n, j)` among the first `m` pairs of predicate `n`. */
  ghost function Row(preds: seq<Predicate>, json: Record, n: nat, m: nat): set<(nat, nat)>
    requires n < |preds| && m <= |preds[n].pairs|
  {
    set j: nat | j < m && Holds(json, preds[n].key, preds[n].pairs[j]) :: (n, j)
  }

  /** The satisfied (predicate, pair) positions among the first `n` predicates. */
  ghost function SatisfiedUpTo(preds: seq<Predicate>, json: Record, n: nat): set<(nat, nat)>
    requires n <= |preds|
  {
    set i: nat, j: nat | i < n && j < |preds[i].pairs| && Holds(json, preds[i].key, preds[i].pairs[j]) :: (i, j)
  }

  /** All satisfied (predicate, pair) positions. */
  ghost function Satisfied(preds: seq<Predicate>, json: Record): set<(nat, nat)> {
    SatisfiedUpTo(preds, json, |preds|)
  }

  /** The copies written for the first `m` pairs of predicate `n` number the
      satisfied positions among them. */
  lemma {:induction false} PairCopiesCount(preds: seq<Predicate>, json: Record, n: nat, m: nat)
    requires n < |preds| && m <= |preds[n].pairs|
    requires FieldText(json, preds[n].key).Some?
    ensures |PairCopies(preds[n].pairs[..m], FieldText(json, preds[n].key).value, json)| == |Row(preds, json, n, m)|
  {
    var text := FieldText(json, preds[n].key).value;
    var ps := preds[n].pairs;
    if m == 0 {
      assert ps[..0] == [];
      assert Row(preds, json, n, 0) == {};
    } else {
      assert ps[..m][..m - 1] == ps[..m - 1];
      assert ps[..m][m - 1] == ps[m - 1];
      PairCopiesCount(preds, json, n, m - 1);
      if PairHolds(ps[m - 1], text) {
        assert Row(preds, json, n, m) == Row(preds, json, n, m - 1) + {(n, m - 1)};
      } else {
        assert Row(preds, json, n, m) == Row(preds, json, n, m - 1);
      }
    }
  }

  /** The positions of one more predicate are its row, none of them seen before. */
  lemma SatisfiedNext(preds: seq<Predicate>, json: Record, n: nat)
    requires n < |preds|
    ensures SatisfiedUpTo(preds, json, n + 1) == SatisfiedUpTo(preds, json, n) + Row(preds, json, n, |preds[n].pairs|)
    ensures SatisfiedUpTo(preds, json, n) * Row(preds, json, n, |preds[n].pairs|) == {}
  {
  }

  /** Predicate `n - 1` adds one copy per position of its row. */
  lemma LastPredicateCopies(preds: seq<Predicate>, json: Record, n: nat)
    requires 0 < n <= |preds|
    ensures |Copies(preds[..n], json)| == |Copies(preds[..n - 1], json)| + |Row(preds, json, n - 1, |preds[n - 1].pairs|)|
  {
    var p := preds[n - 1];
    assert preds[..n][..n - 1] == preds[..n - 1];
    assert preds[..n][n - 1] == p;
    match FieldText(json, p.key)
    case None =>
      assert Row(preds, json, n - 1, |p.pairs|) == {};
    case Some(text) =>
      PairCopiesCount(preds, json, n - 1, |p.pairs|);
      assert p.pairs[..|p.pairs|] == p.pairs;
  }

  /** The copies written for the first `n` predicates number the satisfied
      positions among them. */
  lemma {:induction false} CopiesCountUpTo(preds: seq<Predicate>, json: Record, n: nat)
    requires n <= |preds|
    ensures |Copies(preds[..n], json)| == |SatisfiedUpTo(preds, json, n)|
  {
    if n == 0 {
      assert SatisfiedUpTo(preds, json, 0) == {};
    } else {
      LastPredicateCopies(preds, json, n);
      CopiesCountUpTo(preds, json, n - 1);
      SatisfiedNext(preds, json, n - 1);
    }
  }

  /** A record is written once for every (predicate, pair) it satisfies: the
      count of copies is the number of satisfied positions. */
  lemma CopiesCount(preds: seq<Predicate>, json: Record)
    ensures |Copies(preds, json)| == |Satisfied(preds, json)|
  {
    CopiesCountUpTo(preds, json, |preds|);
    assert preds[..|preds|] == preds;
  }

  /** A record is written at all exactly when some pair of some predicate holds
      for its non-empty field text. */
  lemma CopiesWhenSatisfied(preds: seq<Predicate>, json: Record)
    ensures |Copies(preds, json)| > 0 <==>
            exists i, j :: 0 <= i < |preds| && 0 <= j < |preds[i].pairs| && Holds(json, preds[i].key, preds[i].pairs[j])
  {
    CopiesCount(preds, json);
    var s := Satisfied(preds, json);
    if exists i, j :: 0 <= i < |preds| && 0 <= j < |preds[i].pairs| && Holds(json, preds[i].key, preds[i].pairs[j]) {
      var i, j :| 0 <= i < |preds| && 0 <= j < |preds[i].pairs| && Holds(json, preds[i].key, preds[i].pairs[j]);
      assert (i, j) in s;
    }
    if |s| > 0 {
      var x :| x in s;
      assert Holds(json, preds[x.0].key, preds[x.0].pairs[x.1]);
    }
  }

  // ---------------------------------------------------------------------------
  // The pass over the lines

  /** One raw line: skipped unless it starts with `{`; a JSON object that does
      not parse is fatal; otherwise its copies are written. */
  function Step(preds: seq<Predicate>, written: seq<Record>, line: string, parse: string -> Option<Record>): (r: Result<seq<Record>, Fault>)
    ensures Candidate(line).None? ==> r == Success(written)
    ensures r.Failure? <==> Candidate(line).Some? && parse(Candidate(line).value).None?
    ensures r.Failure? ==> r.error == Unparseable(Candidate(line).value)
    ensures r.Success? && Candidate(line).Some? ==>
              r.value == written + Copies(preds, parse(Candidate(line).value).value)
  {
    match Candidate(line)
    case None => Success(written)
    case Some(text) =>
      match parse(text)
      case None => Failure(Unparseable(text))
      case Some(json) => Success(written + Copies(preds, json))
  }

  function Run(preds: seq<Predicate>, written: seq<Record>, lines: seq<string>, parse: string -> Option<Record>): (r: Result<seq<Record>, Fault>)
    decreases |lines|
  {
    if |lines| == 0 then Success(written)
    else
      var next :- Step(preds, written, lines[0], parse);
      Run(preds, next, lines[1..], parse)
  }

  /** The records a line contributes: none unless it parses. */
  ghost function LineCopies(preds: seq<Predicate>, line: string, parse: string -> Option<Record>): seq<Record> {
    match Candidate(line)
    case None => []
    case Some(text) =>
      match parse(text)
      case None => []
      case Some(json) => Copies(preds, json)
  }

  ghost function AllCopies(preds: seq<Predicate>, lines: seq<string>, parse: string -> Option<Record>): seq<Record>
    decreases |lines|
  {
    if |lines| == 0 then [] else LineCopies(preds, lines[0], parse) + AllCopies(preds, lines[1..], parse)
  }

  /** A `{` line that does not parse. */
  ghost predicate Unreadable(line: string, parse: string -> Option<Record>) {
    Candidate(line).Some? && parse(Candidate(line).value).None?
  }

  /** One step fails exactly on an unreadable line, and otherwise appends the
      line's copies. */
  lemma StepCopies(preds: seq<Predicate>, written: seq<Record>, line: string, parse: string -> Option<Record>)
    ensures Step(preds, written, line, parse).Failure? <==> Unreadable(line, parse)
    ensures Step(preds, written, line, parse).Success? ==>
              Step(preds, written, line, parse).value == written + LineCopies(preds, line, parse)
  {
  }

  /** The pass fails exactly when some line is unreadable. */
  lemma {:induction false} RunFails(preds: seq<Predicate>, written: seq<Record>, lines: seq<string>, parse: string -> Option<Record>)
    ensures Run(preds, written, lines, parse).Failure? <==> exists k :: 0 <= k < |lines| && Unreadable(lines[k], parse)
    decreases |lines|
  {
    if |lines| > 0 {
      StepCopies(preds, written, lines[0], parse);
      var s := Step(preds, written, lines[0], parse);
      if s.Success? {
        var rest := lines[1..];
        assert Run(preds, written, lines, parse) == Run(preds, s.value, rest, parse);
        RunFails(preds, s.value, rest, parse);
        if exists k :: 0 <= k < |lines| && Unreadable(lines[k], parse) {
          var k :| 0 <= k < |lines| && Unreadable(lines[k], parse);
          assert k > 0 && rest[k - 1] == lines[k];
          assert Unreadable(rest[k - 1], parse);
        }
        if exists k :: 0 <= k < |rest| && Unreadable(rest[k], parse) {
          var k :| 0 <= k < |rest| && Unreadable(rest[k], parse);
          assert lines[k + 1] == rest[k];
          assert Unreadable(lines[k + 1], parse);
        }
      }
    }
  }

  /** A pass that succeeds writes the copies of every line in input order. */
  lemma {:induction false} RunWrites(preds: seq<Predicate>, written: seq<Record>, lines: seq<string>, parse: string -> Option<Record>)
    requires Run(preds, written, lines, parse).Success?
    ensures Run(preds, written, lines, parse).value == written + AllCopies(preds, lines, parse)
    decreases |lines|
  {
    if |lines| > 0 {
      StepCopies(preds, written, lines[0], parse);
      var next := Step(preds, written, lines[0], parse).value;
      var here, later := LineCopies(preds, lines[0], parse), AllCopies(preds, lines[1..], parse);
      assert Run(preds, written, lines, parse) == Run(preds, next, lines[1..], parse);
      RunWrites(preds, next, lines[1..], parse);
      assert AllCopies(preds, lines, parse) == here + later;
      AppendAssociates(written, here, later);
    }
  }

  // ---------------------------------------------------------------------------
  // The tool

  /** What one filtering produces: the output file name and text, the records
      written (a record once per copy), and the counts it reports. */
  datatype Filtered = Filtered(fileName: string, text: string, written: seq<Record>, totalIn: nat, totalOut: nat)

  /** `TraceFilter.extract` on the file at `absPath` whose lines are `lines`. */
  function Extract(absPath: string, preds: seq<Predicate>, lines: seq<string>,
                   parse: string -> Option<Record>, show: Record -> string): (r: Result<Filtered, Fault>)
    ensures '.' !in absPath ==> r == Failure(IndexOutOfRange)
    ensures '.' in absPath ==>
              (r.Failure? <==> exists k :: 0 <= k < |lines| && Unreadable(lines[k], parse))
    ensures r.Success? ==>
              && r.value.fileName == OutputName(absPath, preds).value
              && r.value.written == AllCopies(preds, lines, parse)
              && r.value.text == Listing(r.value.written, show)
              && r.value.totalIn == |lines|
              && r.value.totalOut == |r.value.written|
  {
    var name :- OutputName(absPath, preds);
    RunFails(preds, [], lines, parse);
    var written :- Run(preds, [], lines, parse);
    RunWrites(preds, [], lines, parse);
    Success(Filtered(name, Listing(written, show), written, |lines|, |written|))
  }
}

=== FILE: treeheight.dfy ===
/** The forest height aggregator (`TreeHeightComputer.compute`): replays
    `flush -> n` and `merge -> a-b` lines over two maps keyed by the start of
    a live interval, one holding each interval's maximum height and the other
    its size-weighted average height, and reports the largest of each. */
module TreeHeight {
  import opened Wrappers
  import opened Strings
  import opened Records

  const FlushPrefix: string := "flush -> "
  const MergePrefix: string := "merge -> "

  // ---------------------------------------------------------------------------
  // Line parsing

  /** `getMerge`: skips as many characters as `"merge -> "` has, trims, and
      splits at the first `-`; each side must be a 32-bit decimal. */
  function GetMerge(line: string): (r: Result<(int, int), Fault>)
    ensures r.Success? ==> |line| >= |MergePrefix|
    ensures r.Success? ==> Int32Min <= r.value.0 <= Int32Max && Int32Min <= r.value.1 <= Int32Max
    ensures |line| < |MergePrefix| ==> r == Failure(IndexOutOfRange)
    ensures |line| >= |MergePrefix| && '-' !in Trim(line[|MergePrefix|..]) ==> r == Failure(IndexOutOfRange)
  {
    var rest :- Substring(line, |MergePrefix|, |line|).OrFail(IndexOutOfRange);
    assert rest == line[|MergePrefix|..];
    var text := Trim(rest);
    var dash := IndexOf(text, '-');
    if dash < 0 then Failure(IndexOutOfRange)
    else
      var lo :- ParseInt(text[..dash]).OrFail(BadNumber(text[..dash]));
      var hi :- ParseInt(text[dash + 1..]).OrFail(BadNumber(text[dash + 1..]));
      Success((lo, hi))
  }

  /** `getFlush`: skips as many characters as `"flush -> "` has, trims, and
      reads a 32-bit decimal. */
  function GetFlush(line: string): (r: Result<int, Fault>)
    ensures r.Success? ==> |line| >= |FlushPrefix| && Int32Min <= r.value <= Int32Max
    ensures |line| < |FlushPrefix| ==> r == Failure(IndexOutOfRange)
  {
    var rest :- Substring(line, |FlushPrefix|, |line|).OrFail(IndexOutOfRange);
    var text := Trim(rest);
    ParseInt(text).OrFail(BadNumber(text))
  }

  /** Trimming leaves a string alone when it neither starts nor ends with blank. */
  lemma TrimUnpadded(s: string)
    requires |s| > 0 && !IsTrimmed(s[0]) && !IsTrimmed(s[|s| - 1])
    ensures Trim(s) == s
  {
    assert TrimStart(s) == 0;
    assert TrimEnd(s, 0) == |s|;
  }

  /** `getFlush` reads back the id of a `flush -> <n>` line. */
  lemma GetFlushOfFlushLine(n: int)
    requires Int32Min <= n <= Int32Max
    ensures GetFlush(FlushPrefix + IntToString(n)) == Success(n)
  {
    var line := FlushPrefix + IntToString(n);
    assert line[|FlushPrefix|..] == IntToString(n);
    assert line[|FlushPrefix|..|line|] == IntToString(n);
    assert Substring(line, |FlushPrefix|, |line|).Some?;
    assert Substring(line, |FlushPrefix|, |line|).value == line[|FlushPrefix|..|line|];
    IntToStringUnpadded(n);
    TrimUnpadded(IntToString(n));
    ParseIntOfIntToString(n);
  }

  /** `getMerge` reads back both ids of a `merge -> <a>-<b>` line whose first
      id is non-negative (a negative first id would put its `-` first). */
  lemma GetMergeOfMergeLine(a: int, b: int)
    requires 0 <= a <= Int32Max && Int32Min <= b <= Int32Max
    ensures GetMerge(MergePrefix + IntToString(a) + "-" + IntToString(b)) == Success((a, b))
  {
    var ta, tb := IntToString(a), IntToString(b);
    var text := ta + "-" + tb;
    var line := MergePrefix + text;
    assert MergePrefix + ta + "-" + tb == line;
    AfterPrefix(MergePrefix, text);
    MergeTextParts(a, b);
    GetMergeSteps(line, text, |ta|, a, b);
  }

  /** The text after the prefix of a merge line is untouched by `trim`,
      splits at the `-` after the first id, and both sides read back. */
  lemma MergeTextParts(a: int, b: int)
    requires 0 <= a <= Int32Max && Int32Min <= b <= Int32Max
    ensures var ta, tb := IntToString(a), IntToString(b);
            var text := ta + "-" + tb;
            && Trim(text) == text && IndexOf(text, '-') == |ta|
            && ParseInt(text[..|ta|]) == Some(a) && ParseInt(text[|ta| + 1..]) == Some(b)
  {
    IntToStringUnpadded(b);
    SplitAtDash(IntToString(a), IntToString(b));
    ParseIntOfIntToString(a);
    ParseIntOfIntToString(b);
  }

  /** `getMerge` succeeds with the two numbers its steps read. */
  lemma GetMergeSteps(line: string, text: string, dash: int, a: int, b: int)
    requires |line| >= |MergePrefix| && Substring(line, |MergePrefix|, |line|) == Some(text)
    requires Trim(text) == text && IndexOf(text, '-') == dash && dash >= 0
    requires ParseInt(text[..dash]) == Some(a) && ParseInt(text[dash + 1..]) == Some(b)
    ensures GetMerge(line) == Success((a, b))
  {
  }

  /** What follows a prefix is read back by `substring`. */
  lemma AfterPrefix(p: string, t: string)
    ensures Substring(p + t, |p|, |p + t|) == Some(t)
  {
    assert (p + t)[|p|..|p + t|] == t;
  }

  /** `<a>-<b>` with `a` a non-negative decimal is untouched by `trim` and
      splits at the `-` just after `a`'s digits. */
  lemma SplitAtDash(ta: string, tb: string)
    requires |ta| > 0 && AllDigits(ta) && |tb| > 0 && !IsTrimmed(tb[|tb| - 1])
    ensures var text := ta + "-" + tb;
            && Trim(text) == text
            && IndexOf(text, '-') == |ta|
            && text[..|ta|] == ta && text[|ta| + 1..] == tb
  {
    var text := ta + "-" + tb;
    assert text[0] == ta[0];
    assert text[|text| - 1] == tb[|tb| - 1];
    TrimUnpadded(text);
    assert forall k :: 0 <= k < |ta| ==> text[k] == ta[k];
    assert text[|ta|] == '-';
    assert text[..|ta|] == ta && text[|ta| + 1..] == tb;
  }

  lemma IntToStringUnpadded(n: int)
    ensures !IsTrimmed(IntToString(n)[0]) && !IsTrimmed(IntToString(n)[|IntToString(n)| - 1])
  {
    var s := IntToString(n);
    if n < 0 {
      assert s[|s| - 1] == NatToString(-n)[|NatToString(-n)| - 1];
    }
    var d := NatToString(if n < 0 then -n else n);
    assert IsDigit(d[0]) && IsDigit(d[|d| - 1]);
  }

  // ---------------------------------------------------------------------------
  // The forest

  /** A `maxMap` value: the interval `[start, end]` and its maximum height. */
  datatype MaxEntry = MaxEntry(start: int, end: int, height: int)

  /** A `weightedAvgMap` value: the interval and its weighted height, a double
      in the source. `None` stands for a double that is not a finite number
      (NaN or an infinity): such a value stays non-finite through every
      product, sum and quotient this computation forms. */
  datatype AvgEntry = AvgEntry(start: int, end: int, height: Option<real>)

  datatype Forest = Forest(maxMap: map<int, MaxEntry>, avgMap: map<int, AvgEntry>)

  const Empty: Forest := Forest(map[], map[])

  /** Both maps hold the same interval starts. */
  ghost predicate KeysAgree(f: Forest) {
    f.maxMap.Keys == f.avgMap.Keys
  }

  function AddReal(x: Option<real>, y: Option<real>): (r: Option<real>)
    ensures r.Some? <==> x.Some? && y.Some?
  {
    if x.Some? && y.Some? then Some(x.value + y.value) else None
  }

  function Scale(x: Option<real>, c: int): (r: Option<real>)
    ensures r.Some? <==> x.Some?
  {
    if x.Some? then Some(x.value * c as real) else None
  }

  /** `flush -> n`: a leaf interval `[n, n]` of height 1 in both maps. */
  function AddFlush(f: Forest, n: int): (r: Forest)
    ensures r.maxMap.Keys == f.maxMap.Keys + {n} && r.avgMap.Keys == f.avgMap.Keys + {n}
    ensures r.maxMap[n] == MaxEntry(n, n, 1) && r.avgMap[n] == AvgEntry(n, n, Some(1.0))
    ensures forall k :: k in f.maxMap && k != n ==> r.maxMap[k] == f.maxMap[k]
    ensures forall k :: k in f.avgMap && k != n ==> r.avgMap[k] == f.avgMap[k]
  {
    Forest(f.maxMap[n := MaxEntry(n, n, 1)], f.avgMap[n := AvgEntry(n, n, Some(1.0))])
  }

  /** What the merge loop accumulates: the largest child height, the sum of
      weighted height times size, and the sum of sizes. */
  datatype Acc = Acc(maxIn: int, total: Option<real>, count: int)

  const NoChildren: Acc := Acc(0, Some(0.0), 0)

  /** The starts of live intervals in `lo .. hi`, in increasing order: the
      children a merge over that range absorbs. */
  function Children(m: map<int, MaxEntry>, lo: int, hi: int): (ks: seq<int>)
    ensures forall k :: k in ks <==> k in m && lo <= k <= hi
    ensures forall x :: 0 <= x < |ks| ==> ks[x] in m && lo <= ks[x] <= hi
    ensures forall x, y :: 0 <= x < y < |ks| ==> ks[x] < ks[y]
    decreases hi - lo + 1
  {
    if lo > hi then []
    else (if lo in m then [lo] else []) + Children(m, lo + 1, hi)
  }

  /** Only which keys of `lo .. hi` are present decides the children. */
  lemma {:induction false} ChildrenFrame(m: map<int, MaxEntry>, m': map<int, MaxEntry>, lo: int, hi: int)
    requires forall k :: lo <= k <= hi ==> (k in m <==> k in m')
    ensures Children(m, lo, hi) == Children(m', lo, hi)
    decreases hi - lo + 1
  {
    if lo <= hi {
      ChildrenFrame(m, m', lo + 1, hi);
    }
  }

  /** Every interval in `ks` has a weighted entry. */
  predicate AllIn(a: map<int, AvgEntry>, ks: seq<int>) {
    forall j :: 0 <= j < |ks| ==> ks[j] in a
  }

  /** Sum of weighted height times size over the given intervals. */
  function WeightedSum(a: map<int, AvgEntry>, ks: seq<int>): Option<real>
    requires AllIn(a, ks)
  {
    if |ks| == 0 then Some(0.0)
    else AddReal(Scale(a[ks[0]].height, Size(a[ks[0]])), WeightedSum(a, ks[1..]))
  }

  /** Sum of sizes over the given intervals. */
  function SizeSum(a: map<int, AvgEntry>, ks: seq<int>): int
    requires AllIn(a, ks)
  {
    if |ks| == 0 then 0 else Size(a[ks[0]]) + SizeSum(a, ks[1..])
  }

  /** The number of leaf ids an interval covers, `end - start + 1`, computed
      in `int` and so wrapped to 32 bits before it is widened to `double`. */
  function Size(e: AvgEntry): int {
    WrapInt(e.end - e.start + 1)
  }

  /** The sums only read the entries of the intervals summed over. */
  lemma {:induction false} SumsFrame(a: map<int, AvgEntry>, a': map<int, AvgEntry>, ks: seq<int>)
    requires AllIn(a, ks)
    requires forall j :: 0 <= j < |ks| ==> ks[j] in a' && a'[ks[j]] == a[ks[j]]
    ensures WeightedSum(a', ks) == WeightedSum(a, ks) && SizeSum(a', ks) == SizeSum(a, ks)
  {
    if |ks| > 0 {
      SumsFrame(a, a', ks[1..]);
    }
  }

  /** The merge loop `for i = lo .. hi`: every live interval starting at `i`
      is removed from `maxMap` and, only then, from the weighted map, and
      folded into the accumulator. A weighted entry missing where a max entry
      was found is a null dereference. */
  function Absorb(f: Forest, i: int, hi: int, acc: Acc): (r: Result<(Forest, Acc), Fault>)
    // it fails exactly when a live start in i .. hi has no weighted partner
    ensures r.Success? <==> forall k :: i <= k <= hi && k in f.maxMap ==> k in f.avgMap
    decreases hi - i + 1
  {
    if i > hi then Success((f, acc))
    else if i !in f.maxMap then Absorb(f, i + 1, hi, acc)
    else if i !in f.avgMap then Failure(NullDereference("weightedAvgMap entry"))
    else
      var m := f.maxMap[i];
      var w := f.avgMap[i];
      var g := Forest(f.maxMap - {i}, f.avgMap - {i});
      assert forall k :: i < k ==> (k in g.maxMap <==> k in f.maxMap) && (k in g.avgMap <==> k in f.avgMap);
      Absorb(g, i + 1, hi,
             Acc(if acc.maxIn >= m.height then acc.maxIn else m.height,
                 AddReal(acc.total, Scale(w.height, Size(w))),
                 acc.count + Size(w)))
  }

  /** Both maps lose exactly the live starts in `i .. hi` (the weighted map
      only where the max map had one) and keep every other entry. */
  lemma {:induction false} AbsorbMaps(f: Forest, i: int, hi: int, acc: Acc)
    requires Absorb(f, i, hi, acc).Success?
    ensures var g := Absorb(f, i, hi, acc).value.0;
            && (forall k :: k in g.maxMap <==> k in f.maxMap && !(i <= k <= hi))
            && (forall k :: k in g.maxMap ==> g.maxMap[k] == f.maxMap[k])
            && (forall k :: k in g.avgMap <==> k in f.avgMap && !(i <= k <= hi && k in f.maxMap))
            && (forall k :: k in g.avgMap ==> g.avgMap[k] == f.avgMap[k])
    decreases hi - i + 1
  {
    if i <= hi {
      if i !in f.maxMap {
        AbsorbMaps(f, i + 1, hi, acc);
      } else {
        var m := f.maxMap[i];
        var w := f.avgMap[i];
        var acc' := Acc(if acc.maxIn >= m.height then acc.maxIn else m.height,
                        AddReal(acc.total, Scale(w.height, Size(w))),
                        acc.count + Size(w));
        AbsorbMaps(Forest(f.maxMap - {i}, f.avgMap - {i}), i + 1, hi, acc');
      }
    }
  }

  /** The accumulated maximum is the largest child height, or where it
      started when that is larger. */
  lemma {:induction false} AbsorbMax(f: Forest, i: int, hi: int, acc: Acc)
    requires Absorb(f, i, hi, acc).Success?
    ensures var m := Absorb(f, i, hi, acc).value.1.maxIn;
            && m >= acc.maxIn
            && (forall k :: k in f.maxMap && i <= k <= hi ==> f.maxMap[k].height <= m)
            && (m == acc.maxIn || exists k :: k in f.maxMap && i <= k <= hi && f.maxMap[k].height == m)
    decreases hi - i + 1
  {
    if i <= hi {
      if i !in f.maxMap {
        AbsorbMax(f, i + 1, hi, acc);
      } else {
        var m := f.maxMap[i];
        var w := f.avgMap[i];
        var g := Forest(f.maxMap - {i}, f.avgMap - {i});
        var acc' := Acc(if acc.maxIn >= m.height then acc.maxIn else m.height,
                        AddReal(acc.total, Scale(w.height, Size(w))),
                        acc.count + Size(w));
        assert Absorb(f, i, hi, acc).value.1 == Absorb(g, i + 1, hi, acc').value.1 by {
          assert Absorb(f, i, hi, acc) == Absorb(g, i + 1, hi, acc');
        }
        AbsorbMax(g, i + 1, hi, acc');
        assert forall k :: k in f.maxMap && i < k <= hi ==> k in g.maxMap && g.maxMap[k] == f.maxMap[k];
      }
    }
  }

  /** The accumulated sums are the weighted and size sums over the children,
      in increasing order of start, added to where they started. */
  lemma {:induction false} AbsorbSums(f: Forest, i: int, hi: int, acc: Acc)
    requires Absorb(f, i, hi, acc).Success?
    ensures AllIn(f.avgMap, Children(f.maxMap, i, hi))
    ensures var r := Absorb(f, i, hi, acc).value.1;
            var ks := Children(f.maxMap, i, hi);
            && r.total == AddReal(acc.total, WeightedSum(f.avgMap, ks))
            && r.count == acc.count + SizeSum(f.avgMap, ks)
    decreases hi - i + 1
  {
    if i <= hi {
      if i !in f.maxMap {
        assert Children(f.maxMap, i, hi) == Children(f.maxMap, i + 1, hi);
        assert Absorb(f, i, hi, acc).value.1 == Absorb(f, i + 1, hi, acc).value.1 by {
          assert Absorb(f, i, hi, acc) == Absorb(f, i + 1, hi, acc);
        }
        AbsorbSums(f, i + 1, hi, acc);
      } else {
        var w := f.avgMap[i];
        var g := Forest(f.maxMap - {i}, f.avgMap - {i});
        var x := Scale(w.height, Size(w));
        var acc' := Acc(if acc.maxIn >= f.maxMap[i].height then acc.maxIn else f.maxMap[i].height,
                        AddReal(acc.total, x), acc.count + Size(w));
        var r := Absorb(f, i, hi, acc).value.1;
        assert r == Absorb(g, i + 1, hi, acc').value.1 by {
          assert Absorb(f, i, hi, acc) == Absorb(g, i + 1, hi, acc');
        }
        AbsorbSums(g, i + 1, hi, acc');
        AbsorbSumsStep(f, i, hi, acc.total, acc.count, acc', r);
      }
    }
  }

  /** One step of AbsorbSums: the child at `i` folded in first, then the sums
      over the rest, add up to the sums over all children of `i .. hi`. */
  lemma AbsorbSumsStep(f: Forest, i: int, hi: int, total: Option<real>, count: int, acc': Acc, r: Acc)
    requires i <= hi && i in f.maxMap && i in f.avgMap
    requires AllIn(f.avgMap - {i}, Children(f.maxMap - {i}, i + 1, hi))
    requires acc'.total == AddReal(total, Scale(f.avgMap[i].height, Size(f.avgMap[i])))
    requires acc'.count == count + Size(f.avgMap[i])
    requires var rest := Children(f.maxMap - {i}, i + 1, hi);
             && r.total == AddReal(acc'.total, WeightedSum(f.avgMap - {i}, rest))
             && r.count == acc'.count + SizeSum(f.avgMap - {i}, rest)
    ensures AllIn(f.avgMap, Children(f.maxMap, i, hi))
    ensures var ks := Children(f.maxMap, i, hi);
            && r.total == AddReal(total, WeightedSum(f.avgMap, ks))
            && r.count == count + SizeSum(f.avgMap, ks)
  {
    var w := f.avgMap[i];
    SumsTake(f, i, hi);
    AddRealAssociates(total, Scale(w.height, Size(w)), WeightedSum(f.avgMap - {i}, Children(f.maxMap - {i}, i + 1, hi)));
  }

  /** Taking the child at `i` first: the children of `i .. hi` are `i` then
      those of `i + 1 .. hi` once `i` is removed, and the sums split the same way. */
  lemma SumsTake(f: Forest, i: int, hi: int)
    requires i <= hi && i in f.maxMap && i in f.avgMap
    requires AllIn(f.avgMap - {i}, Children(f.maxMap - {i}, i + 1, hi))
    ensures var ks := Children(f.maxMap, i, hi);
            var rest := Children(f.maxMap - {i}, i + 1, hi);
            var w := f.avgMap[i];
            && AllIn(f.avgMap, ks)
            && WeightedSum(f.avgMap, ks) == AddReal(Scale(w.height, Size(w)), WeightedSum(f.avgMap - {i}, rest))
            && SizeSum(f.avgMap, ks) == Size(w) + SizeSum(f.avgMap - {i}, rest)
  {
    var ks := Children(f.maxMap, i, hi);
    var rest := Children(f.maxMap - {i}, i + 1, hi);
    ChildrenFrame(f.maxMap - {i}, f.maxMap, i + 1, hi);
    assert ks == [i] + rest;
    assert ks[1..] == rest;
    SumsFrame(f.avgMap - {i}, f.avgMap, rest);
  }

  lemma AddRealAssociates(x: Option<real>, y: Option<real>, z: Option<real>)
    ensures AddReal(AddReal(x, y), z) == AddReal(x, AddReal(y, z))
  {
  }

  /** `totalHeightIn / countComponentsIn + 1.0`: dividing by a zero count gives
      NaN or an infinity in the source, so not a finite number here. */
  function WeightedHeight(total: Option<real>, count: int): (r: Option<real>)
    ensures r.Some? <==> total.Some? && count != 0
  {
    if total.Some? && count != 0 then Some(total.value / count as real + 1.0) else None
  }

  /** `merge -> lo-hi`: absorbs the live intervals starting in `lo .. hi`
      and puts `[lo, hi]` in their place. With `hi` the largest `int` the
      source's loop counter wraps around and the loop never ends. */
  function Merge(f: Forest, lo: int, hi: int): (r: Result<Forest, Fault>)
    requires hi <= Int32Max
    ensures hi == Int32Max ==> r == Failure(Diverges)
  {
    if hi == Int32Max then Failure(Diverges)
    else
      var absorbed :- Absorb(f, lo, hi, NoChildren);
      var g := absorbed.0;
      var acc := absorbed.1;
      Success(Forest(g.maxMap[lo := MaxEntry(lo, hi, acc.maxIn + 1)],
                     g.avgMap[lo := AvgEntry(lo, hi, WeightedHeight(acc.total, acc.count))]))
  }

  /** One line: an empty line ends the input (`None`), a line starting with
      `m` is a merge, with `f` a flush, and anything else is fatal. */
  function Step(f: Forest, line: string): (r: Result<Option<Forest>, Fault>)
    ensures |line| == 0 ==> r == Success(None)
    ensures |line| > 0 && line[0] != 'm' && line[0] != 'f' ==> r == Failure(UnknownLine(line))
    ensures r.Success? && r.value.Some? ==> |line| > 0
  {
    if |line| == 0 then Success(None)
    else if line[0] == 'm' then
      var range :- GetMerge(line);
      var g :- Merge(f, range.0, range.1);
      Success(Some(g))
    else if line[0] == 'f' then
      var n :- GetFlush(line);
      Success(Some(AddFlush(f, n)))
    else Failure(UnknownLine(line))
  }

  /** The reading loop, stopping at end of input or at the first empty line. */
  function Run(f: Forest, lines: seq<string>): Result<Forest, Fault>
    decreases |lines|
  {
    if |lines| == 0 then Success(f)
    else
      var next :- Step(f, lines[0]);
      match next
      case None => Success(f)
      case Some(g) => Run(g, lines[1..])
  }

  // ---------------------------------------------------------------------------
  // Properties of one merge

  /** After `merge -> lo-hi` no interval starting in `lo + 1 .. hi` is left in
      either map, `lo` maps to `[lo, hi]` in both, and every other start
      outside `lo .. hi` is untouched. */
  lemma MergeKeys(f: Forest, lo: int, hi: int)
    requires hi < Int32Max && KeysAgree(f)
    ensures Merge(f, lo, hi).Success?
    ensures var g := Merge(f, lo, hi).value;
            && KeysAgree(g)
            && lo in g.maxMap && g.maxMap[lo].start == lo && g.maxMap[lo].end == hi
            && g.avgMap[lo].start == lo && g.avgMap[lo].end == hi
            && (forall k :: lo < k <= hi ==> k !in g.maxMap && k !in g.avgMap)
            && (forall k :: k != lo && !(lo <= k <= hi) ==>
                  (k in g.maxMap <==> k in f.maxMap)
                  && (k in g.maxMap ==> g.maxMap[k] == f.maxMap[k] && g.avgMap[k] == f.avgMap[k]))
  {
    var absorbed := Absorb(f, lo, hi, NoChildren);
    assert absorbed.Success?;
    AbsorbMaps(f, lo, hi, NoChildren);
    var rest := absorbed.value.0;
    var g := Merge(f, lo, hi).value;
    assert g.maxMap == rest.maxMap[lo := g.maxMap[lo]] && g.avgMap == rest.avgMap[lo := g.avgMap[lo]];
    assert forall k :: k in rest.maxMap <==> k in rest.avgMap;
  }

  /** A merge's maximum height is one more than the largest height among the
      intervals it absorbs (1 when it absorbs none), so it is strictly greater
      than each of them. */
  lemma MergeMaxHeight(f: Forest, lo: int, hi: int)
    requires hi < Int32Max && KeysAgree(f)
    ensures Merge(f, lo, hi).Success?
    ensures var h := Merge(f, lo, hi).value.maxMap[lo].height;
            && h >= 1
            && (forall k :: k in f.maxMap && lo <= k <= hi ==> f.maxMap[k].height < h)
            && (h == 1 || exists k :: k in f.maxMap && lo <= k <= hi && f.maxMap[k].height == h - 1)
            && ((forall k :: lo <= k <= hi ==> k !in f.maxMap) ==> h == 1)
  {
    var absorbed := Absorb(f, lo, hi, NoChildren);
    assert absorbed.Success?;
    AbsorbMax(f, lo, hi, NoChildren);
    assert Merge(f, lo, hi).value.maxMap[lo].height == absorbed.value.1.maxIn + 1;
  }

  /** A merge's weighted height is the size-weighted mean of the absorbed
      intervals' weighted heights plus one; with nothing absorbed the mean
      divides by zero and the height is not a finite number. */
  lemma MergeWeightedHeight(f: Forest, lo: int, hi: int)
    requires hi < Int32Max && KeysAgree(f)
    ensures Merge(f, lo, hi).Success?
    ensures var ks := Children(f.maxMap, lo, hi);
            && AllIn(f.avgMap, ks)
            && Merge(f, lo, hi).value.avgMap[lo].height
               == WeightedHeight(WeightedSum(f.avgMap, ks), SizeSum(f.avgMap, ks))
            && (|ks| == 0 ==> Merge(f, lo, hi).value.avgMap[lo].height.None?)
  {
    var absorbed := Absorb(f, lo, hi, NoChildren);
    assert absorbed.Success?;
    AbsorbSums(f, lo, hi, NoChildren);
    var ks := Children(f.maxMap, lo, hi);
    assert AddReal(Some(0.0), WeightedSum(f.avgMap, ks)) == WeightedSum(f.avgMap, ks);
    assert Merge(f, lo, hi).value.avgMap[lo].height
           == WeightedHeight(absorbed.value.1.total, absorbed.value.1.count);
  }

  /** When every absorbed interval has a positive size and a finite weighted
      height between `low` and `high`, the merge's weighted height lies
      between `low + 1` and `high + 1`. */
  lemma MergeWeightedHeightBounds(f: Forest, lo: int, hi: int, low: real, high: real)
    requires hi < Int32Max && KeysAgree(f)
    requires exists k :: k in f.maxMap && lo <= k <= hi
    requires forall k :: k in f.avgMap && lo <= k <= hi ==>
               Size(f.avgMap[k]) > 0 && f.avgMap[k].height.Some?
               && low <= f.avgMap[k].height.value <= high
    ensures Merge(f, lo, hi).Success?
    ensures var w := Merge(f, lo, hi).value.avgMap[lo].height;
            w.Some? && low + 1.0 <= w.value <= high + 1.0
  {
    var ks := Children(f.maxMap, lo, hi);
    assert |ks| > 0 by {
      var k :| k in f.maxMap && lo <= k <= hi;
      assert k in ks;
    }
    assert Bounded(f.avgMap, ks, low, high);
    MeanBounds(f.avgMap, ks, low, high);
    MergeWeightedHeight(f, lo, hi);
  }

  /** The size-weighted mean of heights between `low` and `high`, plus one,
      lies between `low + 1` and `high + 1`. */
  lemma MeanBounds(a: map<int, AvgEntry>, ks: seq<int>, low: real, high: real)
    requires |ks| > 0 && Bounded(a, ks, low, high)
    ensures AllIn(a, ks)
    ensures var w := WeightedHeight(WeightedSum(a, ks), SizeSum(a, ks));
            w.Some? && low + 1.0 <= w.value <= high + 1.0
  {
    WeightedSumBounds(a, ks, low, high);
    DivisionBounds(WeightedSum(a, ks).value, SizeSum(a, ks) as real, low, high);
  }

  lemma DivisionBounds(t: real, c: real, low: real, high: real)
    requires c > 0.0 && Within(low, high, c, t)
    ensures low <= t / c <= high
  {
    assert t / c * c == t;
  }

  /** Every interval in `ks` has a positive size and a finite weighted height
      between `low` and `high`. */
  ghost predicate Bounded(a: map<int, AvgEntry>, ks: seq<int>, low: real, high: real) {
    forall j :: 0 <= j < |ks| ==>
      ks[j] in a && Size(a[ks[j]]) > 0 && a[ks[j]].height.Some? && low <= a[ks[j]].height.value <= high
  }

  /** `sum` lies between `low` and `high` times `size`. */
  predicate Within(low: real, high: real, size: real, sum: real) {
    low * size <= sum <= high * size
  }

  /** The weighted sum lies between `low` and `high` times the size sum. */
  lemma {:induction false} WeightedSumBounds(a: map<int, AvgEntry>, ks: seq<int>, low: real, high: real)
    requires Bounded(a, ks, low, high)
    ensures AllIn(a, ks) && WeightedSum(a, ks).Some? && SizeSum(a, ks) >= 0
    ensures |ks| > 0 ==> SizeSum(a, ks) > 0
    ensures Within(low, high, SizeSum(a, ks) as real, WeightedSum(a, ks).value)
  {
    if |ks| > 0 {
      var rest := ks[1..];
      assert Bounded(a, rest, low, high) by {
        forall j | 0 <= j < |rest| ensures rest[j] == ks[j + 1] { }
      }
      WeightedSumBounds(a, rest, low, high);
      FirstTermBounds(a, ks, low, high);
    }
  }

  /** Putting the first interval in front of sums that lie within the bounds
      keeps them within the bounds. */
  lemma FirstTermBounds(a: map<int, AvgEntry>, ks: seq<int>, low: real, high: real)
    requires |ks| > 0 && Bounded(a, ks, low, high)
    requires AllIn(a, ks[1..]) && WeightedSum(a, ks[1..]).Some? && SizeSum(a, ks[1..]) >= 0
    requires Within(low, high, SizeSum(a, ks[1..]) as real, WeightedSum(a, ks[1..]).value)
    ensures AllIn(a, ks) && WeightedSum(a, ks).Some? && SizeSum(a, ks) > 0
    ensures Within(low, high, SizeSum(a, ks) as real, WeightedSum(a, ks).value)
  {
    assert AllIn(a, ks) && ks[0] in a;
    var e := a[ks[0]];
    SumsStep(a, ks);
    AddBounds(low, high, e.height.value, Size(e) as real, SizeSum(a, ks[1..]) as real,
              WeightedSum(a, ks[1..]).value, SizeSum(a, ks) as real, WeightedSum(a, ks).value);
  }

  /** One step of the sums: the first interval's terms in front of the rest's. */
  lemma SumsStep(a: map<int, AvgEntry>, ks: seq<int>)
    requires |ks| > 0 && AllIn(a, ks) && a[ks[0]].height.Some? && WeightedSum(a, ks[1..]).Some?
    ensures AllIn(a, ks[1..]) && WeightedSum(a, ks).Some?
    ensures SizeSum(a, ks) == Size(a[ks[0]]) + SizeSum(a, ks[1..])
    ensures SizeSum(a, ks) as real == (Size(a[ks[0]]) as real) + (SizeSum(a, ks[1..]) as real)
    ensures WeightedSum(a, ks).value
            == a[ks[0]].height.value * (Size(a[ks[0]]) as real) + WeightedSum(a, ks[1..]).value
  {
    ScaleSome(a[ks[0]]);
  }

  lemma ScaleSome(e: AvgEntry)
    requires e.height.Some?
    ensures Scale(e.height, Size(e)).Some?
    ensures Scale(e.height, Size(e)).value == e.height.value * (Size(e) as real)
  {
  }

  /** Adding one more weighted term keeps the sum between the bounds times
      the total weight. */
  lemma AddBounds(low: real, high: real, h: real, c: real, total: real, weighted: real, size: real, sum: real)
    requires c > 0.0 && low <= h <= high && Within(low, high, total, weighted)
    requires size == c + total && sum == h * c + weighted
    ensures Within(low, high, size, sum)
  {
    MultiplyBounds(low, h, high, c);
    assert low * (c + total) == low * c + low * total;
    assert high * (c + total) == high * c + high * total;
  }

  lemma MultiplyBounds(low: real, h: real, high: real, c: real)
    requires c > 0.0 && low <= h <= high
    ensures low * c <= h * c <= high * c
  {
  }

  // ---------------------------------------------------------------------------
  // Properties of the whole pass

  /** Replaying lines from a forest whose maps agree keeps them agreeing; and
      then the only possible fault of a merge is the endless loop. */
  lemma {:induction false} RunKeepsKeysAgree(f: Forest, lines: seq<string>)
    requires KeysAgree(f)
    requires Run(f, lines).Success?
    ensures KeysAgree(Run(f, lines).value)
    decreases |lines|
  {
    if |lines| > 0 {
      var next := Step(f, lines[0]).value;
      if next.Some? {
        if lines[0][0] == 'm' {
          var range := GetMerge(lines[0]).value;
          MergeKeys(f, range.0, range.1);
        }
        RunKeepsKeysAgree(next.value, lines[1..]);
      }
    }
  }

  /** Reading stops at the first empty line: what follows it is never looked at. */
  lemma {:induction false} RunStopsAtEmptyLine(f: Forest, lines: seq<string>, rest: seq<string>)
    requires forall k :: 0 <= k < |lines| ==> |lines[k]| > 0
    ensures Run(f, lines + [""] + rest) == Run(f, lines)
    decreases |lines|
  {
    if |lines| == 0 {
      assert (lines + [""] + rest)[0] == "";
    } else {
      var all := lines + [""] + rest;
      assert all[0] == lines[0];
      assert all[1..] == lines[1..] + [""] + rest;
      match Step(f, lines[0])
      case Failure(_) =>
      case Success(next) =>
        if next.Some? {
          RunStopsAtEmptyLine(next.value, lines[1..], rest);
        }
    }
  }

  // ---------------------------------------------------------------------------
  // The report

  /** `h` is what the source's `maxMax` loop computes: the largest height in
      the map, or 0 when it is empty (the loop starts from 0). */
  ghost predicate IsMaxHeight(m: map<int, MaxEntry>, h: int) {
    && h >= 0
    && (forall k :: k in m ==> m[k].height <= h)
    && (h == 0 || exists k :: k in m && m[k].height == h)
  }

  /** The largest maximum height over the live intervals. */
  method MaxHeight(m: map<int, MaxEntry>) returns (h: int)
    ensures IsMaxHeight(m, h)
  {
    h := 0;
    var todo := m.Keys;
    while todo != {}
      invariant todo <= m.Keys
      invariant h >= 0
      invariant forall k :: k in m && k !in todo ==> m[k].height <= h
      invariant h == 0 || exists k :: k in m && k !in todo && m[k].height == h
      decreases |todo|
    {
      // a witness for the such-that below: `todo != {}` alone does not give Dafny one
      if forall x :: x !in todo {
        assert false;
      }
      var k :| k in todo;
      if m[k].height > h {
        h := m[k].height;
      }
      todo := todo - {k};
    }
  }

  /** `w` is what the source's `avgMax` loop computes: not a finite number as
      soon as one entry is not, else the largest weighted height, or 0 when
      none is larger (the loop starts from 0). */
  ghost predicate IsWeightedHeight(a: map<int, AvgEntry>, w: Option<real>) {
    && (w.None? <==> exists k :: k in a && a[k].height.None?)
    && (w.Some? ==>
          && w.value >= 0.0
          && (forall k :: k in a ==> a[k].height.value <= w.value)
          && (w.value == 0.0 || exists k :: k in a && a[k].height == w))
  }

  /** The largest weighted height over the live intervals. */
  method MaxWeightedHeight(a: map<int, AvgEntry>) returns (w: Option<real>)
    ensures IsWeightedHeight(a, w)
  {
    w := Some(0.0);
    var todo := a.Keys;
    while todo != {}
      invariant todo <= a.Keys
      invariant w.None? <==> exists k :: k in a && k !in todo && a[k].height.None?
      invariant w.Some? ==>
                  && w.value >= 0.0
                  && (forall k :: k in a && k !in todo ==> a[k].height.value <= w.value)
                  && (w.value == 0.0 || exists k :: k in a && k !in todo && a[k].height == w)
      decreases |todo|
    {
      // a witness for the such-that below: `todo != {}` alone does not give Dafny one
      if forall x :: x !in todo {
        assert false;
      }
      var k :| k in todo;
      var h := a[k].height;
      if h.None? {
        w := None;
      } else if w.Some? && h.value > w.value {
        w := h;
      }
      todo := todo - {k};
    }
  }

  /** The two global heights. */
  datatype Report = Report(maxHeight: int, weightedHeight: Option<real>)

  /** `TreeHeightComputer.compute`: replay the lines from empty maps, then
      take the largest height of each kind over the intervals still live. */
  method Compute(lines: seq<string>) returns (r: Result<Report, Fault>)
    ensures r.Success? <==> Run(Empty, lines).Success?
    ensures r.Success? ==> var f := Run(Empty, lines).value;
              && KeysAgree(f)
              && IsMaxHeight(f.maxMap, r.value.maxHeight)
              && IsWeightedHeight(f.avgMap, r.value.weightedHeight)
  {
    var replay := Run(Empty, lines);
    if replay.Failure? {
      return Failure(replay.error);
    }
    RunKeepsKeysAgree(Empty, lines);
    var h := MaxHeight(replay.value.maxMap);
    var w := MaxWeightedHeight(replay.value.avgMap);
    return Success(Report(h, w));
  }
}

=== FILE: wrappers.dfy ===
/** Failure-compatible Option and Result types, usable with `:-`. */
module Wrappers {

  /** A value that may be absent; stands for a Java reference that may be null. */
  datatype Option<+T> = None | Some(value: T) {

    predicate IsFailure() {
      None?
    }

    function PropagateFailure<U>(): Option<U>
      requires None?
    {
      None
    }

    function Extract(): T
      requires Some?
    {
      value
    }

    /** The value, or `default` when absent (Java's `getOrDefault`). */
    function GetOr(default: T): T {
      match this
      case Some(v) => v
      case None => default
    }

    /** Turns absence into the given failure. */
    function OrFail<E>(error: E): Result<T, E> {
      match this
      case Some(v) => Success(v)
      case None => Failure(error)
    }
  }

  /** The outcome of a computation that may abort with an error value. */
  datatype Result<+R, +E> = Success(value: R) | Failure(error: E) {

    predicate IsFailure() {
      Failure?
    }

    function PropagateFailure<U>(): Result<U, E>
      requires Failure?
    {
      Failure(error)
    }

    function Extract(): R
      requires Success?
    {
      value
    }
  }
}
